=== FILE: README.md ===
# Canvas shooter: a verified model of the simulation core

This project models the core of a small browser shooter in Dafny:

- **Later game loop** (`src/ts/Game.ts`), modelled as the `Shooter.Game` class. It holds:
  - the projectile, particle, enemy and power-up arrays;
  - the frame counter, the game status and its session-storage copy;
  - the animation-frame and interval handles.
- **Early game loop** (`src/Game.ts`), modelled as `EarlyGame.Game`.
- **Entities:**
  - the player and its particles (`src/entities/Player.ts`, module `Players`);
  - the later enemies (`src/entities/Enemy.ts`, module `Enemies`);
  - the early enemies (`src/Enemy.ts`, module `EarlyEnemies`).
- **Keyboard, mouse and start-up wiring** (`src/ts/index.ts`, module `Controls`).
- **Key-value store and its local-storage saves** (`src/ts/State.ts`, module `Store`).

How the model maps the source:

- **Classes and values.** The game, the player and the store are classes whose methods update their fields, as the source does. Enemies, particles, projectiles and power-ups live in arrays and are only ever replaced one at a time, so each is a datatype value and an update replaces it in its sequence.
- **Frames and passes.** One `animate` call is `Game.Animate`. Its `forEach` passes are loops with invariants, and each is proved against a specification function:
  - `ParticleDrops` for the particle pass;
  - `PowerUpWalk` (one `PowerUpStep` per index) for the power-up pass;
  - `HitQueue` and `Touching` for the enemy pass;
  - `EnemyLoop` and `Scan` for the early enemy loop.
- **Deferred callbacks.** Every `setTimeout(…, 0)` becomes a value that records what the closure captured. Values are appended to the game's `pending` queue. `RunPending` plays the queue afterwards, splicing by the index each callback captured, with JavaScript's `splice` semantics. Lemmas show what that order does:
  - two hits on one enemy in one frame count once (`DoubleHitInOneFrameCountsOnce`);
  - ascending removals skip a neighbour (`AscendingDropsSkipNeighbour`, `DoubleKillRemovesNeighbour`);
  - a hit whose captured index is past the end after earlier removals APPENDS the damaged enemy (`SurvivedHitPastEnd`), so a kill followed by a hit on the next enemy duplicates that enemy and keeps the projectile that hit it (`KillThenHitDuplicates`);
  - a kill whose upgrade lookup finds no entry throws after counting, and changes nothing but the stats (`KillWithoutUpgrade`).
- **Outside the code.**
  - The collision test, the aiming helper, `Math.hypot` and the upgrade table are parameters or fields.
  - Every `Math.random()` draw is a parameter in [0, 1).
  - Animation frames and intervals are handles: numbers recorded in `liveIntervals` and `cancelledFrames`.

Behaviours of the code worth knowing:

- **Kill score.** It is `parseInt(radius.toFixed(2)) * 100`, not `floor(radius) * 100`. It is one hundred more when the fractional part is at least 0.995 (`KillScoreIsHundredTimesWholeRadius`). Enemies of the later loop have whole radii, so for them the two agree (`KillScoreOfWholeRadius`).
- **Projectile culling.** The later loop never removes a projectile for leaving the canvas. Only particles go through the bounds check.
- **Power-up removal.** A power-up removed for passing the right edge is still tested against the player. On a hit, whatever now sits at its index is spliced out too (`PowerUpStepEffects`).
- **Deferred removals** run in the order they were scheduled, by captured index. They are not applied from the highest index down.
- **Resume and restart.** Resuming starts another enemy-spawn interval; the one from before the pause stays live. A game that is over can be set running again by pressing Escape twice, without a restart. Restarting a running game with Tab drops the frame handle without cancelling the frame (`Game.Restart` leaves `cancelledFrames` as it was), so the old chain of frames keeps running beside the new one, and a later `stop` cancels only the newest. Power-ups survive a restart and are walked by its frame. A finished game set running with two Escapes keeps the persisted 'down' (Escape never persists), so clicks stay blocked until a restart.
- **Clicks are gated on the persisted status.** Escape changes only the in-memory status, so a paused game still fires on click.

## Model

| member | source | states |
|---|---|---|
| Common.Move | src/ts/Game.ts:283-285 | a moving circle's update displaces it by exactly its velocity and keeps radius, colour and velocity |
| Common.Scale | src/Enemy.ts:17-18 | `Math.random() * side` lies in [0, side], strictly below side when side is positive |
| Common.SpliceContents | src/ts/Game.ts:303-310 | `splice(i, 1, ...items)` with i in range keeps the elements before i, puts the items at i and shifts the rest after the removed one; with i at or past the end it appends the items to the whole array |
| Common.RemovalKeepsOthers | src/ts/Game.ts:322-324 | a one-element removal keeps every other element in order, shifting those after the index down by one |
| Common.RemovalPastEndIsNoOp | src/ts/Game.ts:274-276 | a removal at an index past the end of the array changes nothing |
| Players.Moved | src/entities/Player.ts:46-61 | the player moves horizontally only when it stays one pixel inside the right edge, else its x-velocity is zeroed; it moves vertically only when it stays inside the bottom edge, and its y-velocity is never changed; no guard on the left or top edge; the far-edge bound is preserved; at rest it stays put |
| Players.EdgeAsymmetry | src/entities/Player.ts:53-60 | at both far edges at once, x-velocity becomes 0 while y-velocity is kept |
| Players.Player.constructor | src/entities/Player.ts:9-37 | fields as given; damage and health default to 1, velocity to (0, 0); no power-up |
| Players.Player.Update | src/entities/Player.ts:46-61 | the player's position and velocity become `Moved` of the old ones; only x, y and the x-velocity may change |
| Players.NewParticle | src/entities/Player.ts:68-77 | a new particle has the given circle, colour and velocity, alpha 1 and friction 0.99 |
| Players.Jitter | src/entities/Player.ts:94-95 | `(random - 0.5) * (random * 8)` lies strictly between -4 and 4 |
| Players.SpawnParticle | src/entities/Player.ts:79-111 | the particle starts at the projectile position with the given colour; an omitted radius lies in [0, 5) and an omitted velocity in (-4, 4) per axis; given ones are used as is |
| Players.UpdateParticle | src/entities/Player.ts:123-130 | velocity is damped by the friction, then added to the position; alpha falls by less than 0.02 and never rises |
| Players.FrictionDamps | src/entities/Player.ts:123-130 | with friction 0.99 each non-zero velocity component shrinks in magnitude and keeps its sign |
| Players.UpdateTimes | src/entities/Player.ts:129 | after n updates alpha has fallen by less than 0.02·n and never risen, so fading from 1 takes more than 50 ticks |
| Enemies.RoundToInt | src/entities/Enemy.ts:36 | `parseInt(v.toFixed(0))` is the integer nearest to v, halves upward |
| Enemies.SpawnEnemy | src/entities/Enemy.ts:35-58 | health is an integer in 10..20 and equals the radius; the enemy starts just off one edge; its velocity is the helper's velocity toward the canvas centre |
| Enemies.UpdateEnemy | src/entities/Enemy.ts:76-81 | an enemy update displaces it by its velocity and changes nothing else |
| EarlyEnemies.NewEarlyEnemy | src/Enemy.ts:6-14 | the constructor keeps every field as given |
| EarlyEnemies.SpawnEarlyEnemy | src/Enemy.ts:16-28 | the early enemy starts on the canvas with a radius in [10, 20), aimed at the centre |
| Rules.StatusName | src/ts/Game.ts:24 | the persisted name of a status is one of 'up', 'down', 'paused' |
| Rules.GetGameStatus | src/ts/Game.ts:73-83 | the status read succeeds exactly for the three names and returns the status with that name; a missing, empty or other value is an error |
| Rules.PersistedStatusRoundTrip | src/ts/Game.ts:73-83 | persisting a status and reading it back gives the same status |
| Rules.KillScore | src/ts/Game.ts:354-357 | the kill score is a multiple of 100 with the sign of the radius |
| Rules.KillScoreIsHundredTimesWholeRadius | src/ts/Game.ts:355 | for a non-negative radius the score is 100·floor(radius), or 100 more when the fraction is at least 0.995 |
| Rules.KillScoreOfWholeRadius | src/ts/Game.ts:354-357 | a whole radius r scores exactly 100·r |
| Rules.AppliedUpgrades | src/ts/Game.ts:333-335 | the filter keeps only table entries whose threshold the score has reached |
| Rules.AppliedUpgradesKeepsReached | src/ts/Game.ts:333-335 | every table entry whose threshold the score has reached is kept |
| Rules.AppliedUpgradesKeepOrder | src/ts/Game.ts:333-335 | filtering a table made of two parts gives the first part's applied entries, then the second's, so table order is kept |
| Rules.UpgradeAttackIsLastReached | src/ts/Game.ts:331-339 | the lookup fails exactly when no threshold is reached, and otherwise yields the attack of the last entry whose threshold is reached |
| Rules.UpgradeAttackMonotone | src/ts/Game.ts:316-317 | for an ascending table, a higher score never yields a lower attack and never loses an upgrade |
| GameRules.BurstSizeCountsLoopIndices | src/ts/Game.ts:202 | the burst size counts exactly the integers i with i < 2·radius |
| GameRules.Burst | src/ts/Game.ts:201-212 | a burst has one particle per loop index, each at the projectile's position in the enemy's colour with alpha 1 |
| GameRules.SurvivedHit | src/ts/Game.ts:301-325 | a surviving hit replaces the enemy at its index by the captured enemy with the new health, removes the projectile at its index, and changes nothing else |
| GameRules.KillingHit | src/ts/Game.ts:311-325 | a kill adds the kill score, counts one elimination, sets the damage to the upgrade attack of the new score, appends the burst, and removes the enemy and the projectile at their indices |
| GameRules.SurvivedHitPastEnd | src/ts/Game.ts:301-325 | a surviving hit whose enemy index is past the end appends the damaged copy; a projectile index past the end removes nothing; stats, particles and damage stay |
| GameRules.KillWithoutUpgrade | src/ts/Game.ts:311-317 | a kill with no reached upgrade entry adds the kill score and one elimination, then throws: nothing else changes |
| GameRules.KillThenHitDuplicates | src/ts/Game.ts:295-327 | a kill at (0, 0) then a surviving hit at (1, 1) on enemies [e0, e1] and projectiles [p, q] leave enemies [e1, e1 damaged] and projectiles [q] |
| GameRules.DoubleHitInOneFrameCountsOnce | src/ts/Game.ts:295-327 | two hits on one enemy in one frame lower its health by one damage, not two, and remove two projectiles |
| GameRules.AscendingDropsSkipNeighbour | src/ts/Game.ts:272-281 | deferred removals at indices 0 and 1 of [a, b, c] leave [b] |
| Shooter.ParticleDropsIndices | src/ts/Game.ts:272-281 | the particle pass schedules only particle removals, at indices that exist |
| Shooter.ParticleDropCounts | src/ts/Game.ts:272-281 | the particle at index k is scheduled once for having faded plus once for being out of bounds after its step |
| Shooter.ParticleDropsCover | src/ts/Game.ts:272-281 | every faded particle and every particle out of bounds after its step is scheduled; one both faded and out of bounds is scheduled twice |
| Shooter.PowerUpStepEffects | src/ts/Game.ts:231-253 | past the right edge a power-up is removed and still tested at its unmoved position, and on a pickup the next element, now at its index, is removed too; on the canvas it is moved, and removed on a pickup |
| Shooter.PowerUpStepDrawsFrom | src/ts/Game.ts:231-253 | one callback never grows the array and only keeps, moves or removes; what lies past its index was past it before |
| Shooter.PowerUpWalkDrawsFrom | src/ts/Game.ts:231-253 | the power-up pass never grows the array, every power-up left was there before (moved once or not), and there are at most as many pickups as callbacks |
| Shooter.HitsExact | src/ts/Game.ts:295-327 | one enemy's hit callbacks correspond exactly to the projectiles colliding with it, each carrying health minus damage |
| Shooter.TouchingCounts | src/ts/Game.ts:287-293 | the touch count is at most the number of enemies and is zero exactly when no enemy touches the player |
| Shooter.Game.constructor | src/ts/Game.ts:44-71 | a new game has the default player at the centre, empty arrays, no frame, no power-up interval, the pointer at (0, 0), status 'up' persisted, zero frames and stats, no expiry timer |
| Shooter.Game.CreatePlayer | src/ts/Game.ts:85-104 | the player is at the canvas centre, with radius 20 and colour aqua unless given, damage and health 1, at rest |
| Shooter.Game.GetStatus | src/ts/Game.ts:73-83 | the status read succeeds exactly when the stored value is one of the three names |
| Shooter.Game.Initialize | src/ts/Game.ts:127-139 | stats are reset, the frame handle is dropped, the three arrays are emptied, and 'up' is set and persisted |
| Shooter.Game.SpawnEnemies | src/ts/Game.ts:153-157 | a new enemy-spawn interval becomes the stored one and is live |
| Shooter.Game.SpawnEnemyTick | src/ts/Game.ts:154-156 | one tick appends one spawned enemy |
| Shooter.Game.SpawnPowerUps | src/ts/Game.ts:159-174 | a new power-up interval becomes the stored one and is live |
| Shooter.Game.SpawnPowerUpTick | src/ts/Game.ts:160-172 | one tick appends a power-up at x = -30, at a height on the canvas, moving right at speed in [2, 3) |
| Shooter.Game.ShootProjectile | src/ts/Game.ts:176-192 | one white projectile of radius 4, aimed at the click at speed 8, is appended and the shot count grows by one |
| Shooter.Game.Stop | src/ts/Game.ts:194-199 | a live frame is cancelled and dropped; with no live frame (including handle 0) nothing changes |
| Shooter.Game.ParticleEffects | src/ts/Game.ts:201-212 | the particle array grows by exactly the burst |
| Shooter.Game.GameOver | src/ts/Game.ts:341-352 | deaths grow by one; the lifecycle becomes `Ended` of the old one: a live frame is cancelled and dropped while a falsy handle is kept and nothing is cancelled, the current enemy interval leaves the live set, and 'down' is set and persisted |
| Shooter.EndedTwice | src/ts/Game.ts:341-352 | a second `gameOver` in the same frame changes the lifecycle no further; after one the status is 'down', persisted, and no frame is live |
| Shooter.AfterGameOversStep | src/ts/Game.ts:287-328 | one more touching enemy after n of them leaves the lifecycle `Ended` of what the first n left |
| Shooter.Game.ExpirePowerUp | src/ts/Game.ts:249-252 | an expiry timer firing removes the power-up and turns the player white |
| Shooter.Game.PowerUpPass | src/ts/Game.ts:231-254 | `Walked` over the whole pass: the power-ups become `PowerUpWalk` of the old ones over their starting length, one expiry timer starts per pickup, and the player holds the machine gun and is yellow exactly when there was a pickup, else unchanged |
| Shooter.Game.PowerUpAt | src/ts/Game.ts:232-253 | one callback leaves the array and the pickup of `PowerUpStep`; a pickup gives the machine gun, yellow, and one expiry timer |
| Shooter.Game.RapidFire | src/ts/Game.ts:256-270 | with the machine gun, one yellow radius-5 projectile is appended on even frames and none on odd ones; without it, none |
| Shooter.Game.StepParticleAt | src/ts/Game.ts:272-281 | one particle is stepped and its removals are queued |
| Shooter.Game.ParticlePass | src/ts/Game.ts:272-281 | every particle is stepped in place and the queue grows by exactly `ParticleDrops` |
| Shooter.Game.ProjectilePass | src/ts/Game.ts:283-285 | every projectile moves once; none is removed |
| Shooter.Game.ScheduleHits | src/ts/Game.ts:295-327 | the queue grows by exactly the enemy's hit callbacks |
| Shooter.Game.StepEnemyAt | src/ts/Game.ts:287-328 | the enemy moves and its hits are queued; a touch adds one to the touch count and one death and calls `gameOver`, so the lifecycle after the first n touches (`AfterGameOvers`) becomes the one after n + 1; without a touch stats and lifecycle stay |
| Shooter.Game.EnemyPass | src/ts/Game.ts:287-328 | every enemy moves, the queue grows by `HitQueue`, deaths grow by the touch count, and the lifecycle is unchanged without a touch and `Ended` (status and persisted 'down', the frame cancelled when live, the enemy interval cleared) with one |
| Shooter.Game.BeginFrame | src/ts/Game.ts:214-270 | the next frame is requested (the rest of the lifecycle kept) and the frame count grows by one; `PlayerFrame`: the player moves by `Moved` and keeps its damage, health and radius, the power-up pass runs against the moved player (the power-ups become `PowerUpWalk` of the old ones, one expiry timer per pickup, machine gun and yellow exactly when there was a pickup, else power-up and colour kept); then exactly the `Volley` of the updated player is appended: the yellow radius-5 shot when it holds the gun on an even frame, nothing otherwise |
| Shooter.Game.MovePlayer | src/ts/Game.ts:227-254 | `PlayerFrame`: `player.update()` moves the player by `Moved`, keeping its damage, health and radius, and the power-up pass then runs against the moved player |
| Shooter.Game.Volley | src/ts/Game.ts:256-270 | the machine gun fires at most one shot per frame, and fires exactly when the player holds the gun and the frame count is even |
| Shooter.Game.RunPasses | src/ts/Game.ts:272-328 | the particle, projectile and enemy passes in order: particles stepped, projectiles moved, enemies updated, the queue grown by drops then hits, deaths by touches, and the lifecycle unchanged or `Ended` as the enemy pass leaves it |
| Shooter.Game.Animate | src/ts/Game.ts:214-329 | one frame: frame count +1, `PlayerFrame` (player moved, power-up pass against the moved player, pickups and their timers); every particle and enemy stepped; the projectiles are the old ones plus this frame's `Volley`, each moved once, so the new shot moves on the frame it is fired; queue extended by particle drops then hits; deaths by touches; the lifecycle is the old one with the new frame requested, then `Ended` when some enemy touches the player (so that new frame is cancelled when its handle is truthy) |
| Shooter.Game.RunPending | src/ts/Game.ts:301-325 | playing the queue gives `RunAll` of the board and the queue, and empties the queue |
| Shooter.Game.Resume | src/ts/Game.ts:106-109 | `Resumed`: the whole frame `Animate` states, then one more enemy interval, stored and live beside the earlier one; without a touch the frame is requested and nothing cancelled; with one the persisted status is 'down', no frame is live, the new frame is cancelled when truthy, and the interval current before is cleared; the in-memory status is kept, or 'down' after a touch |
| Shooter.Game.Restart | src/ts/Game.ts:111-139 | `Restarted`: status 'up' persisted, stats reset, particles and enemies empty, the projectiles exactly this frame's `Volley` moved once, the power-ups NOT cleared but walked by the frame (`PlayerFrame`), the player moved, a frame requested while the cancelled frames stay as they were (the frame live before is never cancelled), both intervals stored and started beside any older ones, nothing queued |
| EarlyGame.ProjectileSweepExact | src/Game.ts:100-113 | the early projectile pass schedules a removal for exactly the projectiles out of bounds after their move |
| EarlyGame.ScanShrinks | src/Game.ts:123-137 | scanning changes only the enemy's radius, by 10 per projectile-only removal; a positive radius stays positive; no more callbacks than projectiles; a kill is scheduled only when the final radius is 10 or less |
| EarlyGame.ScanCallbacksJustified | src/Game.ts:123-137 | every callback names a projectile that collided with the enemy as it stood at that projectile's turn, and is a projectile-only removal exactly when the radius was then above 10 |
| EarlyGame.ScanHitsScheduled | src/Game.ts:123-137 | every projectile colliding with the enemy as it stands at its turn schedules its own removal above radius 10, the removal of both at 10 or less |
| EarlyGame.ScanInOrder | src/Game.ts:123-137 | the callbacks name projectiles in strictly increasing order, so at most one per projectile |
| EarlyGame.ScanExact | src/Game.ts:123-137 | a callback is scheduled for a projectile exactly when it collides with the enemy as it stands at its turn, its kind chosen by the radius then (above 10 shrinks, else kills), in projectile order |
| EarlyGame.EnemyLoopPointwise | src/Game.ts:115-138 | the enemy loop keeps one enemy per enemy: the k-th moved, then scanned |
| EarlyGame.RunSplicesShrink | src/Game.ts:109-134 | deferred removals never lengthen an array, and shorten the projectiles by at most the number of callbacks |
| EarlyGame.DoubleKillRemovesNeighbour | src/Game.ts:131-134 | two kills of enemy 0 in one frame also remove the enemy that moved into index 0 |
| EarlyGame.Game.constructor | src/Game.ts:14-24 | no frame, empty arrays, the default aqua player of radius 20 at the centre |
| EarlyGame.Game.CreatePlayer | src/Game.ts:63-73 | the player is at the centre, with radius 20 and colour aqua unless given |
| EarlyGame.Game.SpawnEnemies | src/Game.ts:75-79 | one more spawn interval runs |
| EarlyGame.Game.SpawnEnemyTick | src/Game.ts:76-78 | one tick appends one spawned early enemy |
| EarlyGame.Game.ShootProjectile | src/Game.ts:81-92 | one white projectile of radius 5 leaves the centre toward the click at speed 4 |
| EarlyGame.Game.ProjectilePass | src/Game.ts:100-113 | every projectile moves and the queue grows by `ProjectileSweep` of the moved ones |
| EarlyGame.Game.ScanEnemy | src/Game.ts:123-137 | the enemy at i becomes its `Scan` result in place, and the queue grows by the scan's callbacks |
| EarlyGame.Game.StepEnemyAt | src/Game.ts:115-138 | the enemy moves, a touch cancels the current frame, then it is scanned |
| EarlyGame.Game.EnemyPass | src/Game.ts:115-138 | the enemies become `EnemyLoop` of the old ones, the queue grows by its callbacks, and the frame is cancelled exactly when some moved enemy touches the player |
| EarlyGame.Game.Animate | src/Game.ts:94-139 | a frame is requested, then the projectile pass and the enemy loop with their queued removals |
| EarlyGame.Game.RunPending | src/Game.ts:109-134 | playing the queue gives `RunSplices` of the arrays and the queue, and empties it |
| EarlyGame.Run | src/Game.ts:44-56 | after start-up one frame is requested, one spawn interval runs, and nothing is scheduled or cancelled |
| Controls.PressAndRelease | src/ts/index.ts:68-124 | a steering key sets exactly one axis to ±1 and its release zeroes that axis only; other keys change nothing |
| Controls.ReleaseStopsHeldOpposite | src/ts/index.ts:105-112 | holding right, pressing then releasing left stops the player although right is still held |
| Controls.EscapeToggles | src/ts/index.ts:86-94 | Escape toggles paused and up; from 'down' it pauses, so two presses set a finished game running |
| Controls.ClickFiresOnlyWhenPersistedUp | src/ts/index.ts:58-60 | a click fires exactly when the stored status is "up", and the read fails exactly for a missing or unknown value |
| Controls.Steer | src/ts/index.ts:69-85 | the key-down steering branch sets the velocity to `Pressed` of the old one |
| Controls.KeyUp | src/ts/index.ts:103-124 | the key-up handler sets the velocity to `Released` of the old one |
| Controls.Escape | src/ts/index.ts:86-94 | `Escaped`: the status becomes `AfterEscape` of the old one; a paused game is `Resumed` (the whole frame and a new enemy interval); any other is stopped (a live frame cancelled and dropped, a falsy one kept) with the player, board, stats, queue, timers, persisted status and intervals unchanged |
| Controls.KeyDown | src/ts/index.ts:68-101 | a steering key sets the velocity by `Pressed` and changes nothing else; Escape leaves `Escaped`; Tab leaves `Restarted`; any other key changes nothing |
| Controls.Click | src/ts/index.ts:54-61 | one shot from the player's position, counted in the stats, exactly when the stored status is "up"; an error exactly when the status read fails; otherwise nothing changes |
| Controls.MouseMove | src/ts/index.ts:63-66 | the pointer position is stored |
| Controls.Start | src/ts/index.ts:40-128 | after start-up the game is up, one frame in, with default stats, no projectiles, power-ups, particles, enemies or queued work, and exactly the two intervals live |
| Store.ShowNatRoundTrip | src/ts/State.ts:49-50 | a number's decimal text is a non-empty digit string that reads back as the number |
| Store.LeadingDigits | src/ts/State.ts:81 | the digits `parseInt` reads are the longest digit prefix |
| Store.ParseShownNat | src/ts/State.ts:81 | `parseInt` reads back a digit string as n and a dash followed by it as -n |
| Store.SaveKey | src/ts/State.ts:49-50 | a save key starts with the prefix |
| Store.SaveKeyPieces | src/ts/State.ts:81 | splitting a save key on the prefix leaves "-" and the digits |
| Store.TimestampOfSaveKeyIsNegated | src/ts/State.ts:80-82 | the key written at time t reads back as timestamp -t |
| Store.FixedTimestampRoundTrip | src/ts/State.ts:80-82 | split on prefix and dash, the key written at time t reads back as t |
| Store.LatestSaveIsFirstMaximum | src/ts/State.ts:84-89 | a save is found exactly when the list is non-empty and every timestamp is a number, and it is the first with the largest timestamp |
| Store.LoadPicksOldestSave | src/ts/State.ts:74-89 | of two saves at t1 < t2, the older one is chosen, in either storage order |
| Store.FixedLoadPicksNewestSave | src/ts/State.ts:74-89 | with the fixed key reading the newer one is chosen, in either order |
| Store.LoadWithoutSavesKeepsState | src/ts/State.ts:57-77 | with no prefixed key holding a value, nothing is collected and the state is kept |
| Store.SaveCannotRestoreState | src/ts/State.ts:46-52 | whatever the parser, saving and loading cannot restore two different states |
| Store.FixedSaveThenLoadRestoresNewest | src/ts/State.ts:46-77 | saving an encoding the parser inverts, a load restores the newest saved state |
| Store.EntriesMapLookup | src/ts/State.ts:32-33 | a plain object's map has exactly its keys, each with the value of its last entry |
| Store.State.constructor | src/ts/State.ts:27-36 | no argument gives an empty map, a plain object its entries' map, a map itself |
| Store.State.Set | src/ts/State.ts:38-44 | afterwards `get` of the key is the value and every other key reads as before |
| Store.State.Save | src/ts/State.ts:46-52 | the entry written is the timestamped key and the map's `toString()` text |
| Store.State.SaveEncoded | src/ts/State.ts:46-52 | the corrected save writes the timestamped key and the state's encoding |
| Store.State.Load | src/ts/State.ts:57-78 | the state becomes the parsed latest save when there is one, stays when there is none, and stays when parsing throws (an error) |

## Left out

- Rendering: every `draw`, `drawHealth`, the `fillRect` trails, the gsap fades and the game-over prompt.
- DOM plumbing: canvas lookup and validation, event registration, window resizing (the canvas size is fixed per game), `Component` and the HUD display reset.
- Timing: an interval is only a handle in `liveIntervals`; its cadence and its ticks (`SpawnEnemyTick`, `SpawnPowerUpTick`) are separate calls.
  - The 5000 ms power-up expiry is a count of pending timers fired by `ExpirePowerUp`, not a clock.
  - Animation frames are handles; the next frame is a further `Animate` call.
- Unseen helpers:
  - `isColliding`, `getVelocity`, `Math.hypot`, `Math.atan2`/`cos`/`sin` and `PLAYER_UPGRADES` are parameters or fields;
  - the rapid-fire velocity is an input;
  - `src/ts/entities/Circle.ts` and `src/ts/entities/PowerUp.ts` are not part of this model; `MovingCircle.update` and `PowerUp.update` are assumed to add the velocity to the position.
- `initializeState` and the `update*` stat changers (`stateChangers`) are not part of this model.
  - Counters add one, or the score, to the stats.
  - A restart's stats are a parameter.
  - Any effect of `initializeState` on `state.player` is not modelled, so the player the `index.ts` closures captured stays the game's player.
- The `butcherjs` reactive store and the `listen` call in `animate`: `state` is a set of fields of the game.
- The missing-player early returns of `animate` and of the start-up code: the game's constructor always sets the player, so the model has no null player.
- `src/Player.ts` and `dist/`: a constructor passthrough and bundler output.
- Controls.Start: does not model the throw when the page has no canvas.
- Store.ParseInt: leading blanks, a `0x` prefix and numbers too large for a double are not modelled; save keys never contain them.
- Store.State.Load: `JSON.parse` is a parameter returning a map; that the real parser yields a plain object, not a `Map`, is not modelled.
- Local-storage enumeration order is the order of the `storage` sequence; `for…in` over inherited `Storage` members is left out, since none of them starts with the prefix.
- Store.State.constructor: the map passed in is used by value here; the aliasing of a caller's `Map` is not modelled.
- Particle alpha, positions and velocities are real numbers, not IEEE doubles.
- Rules.KillScore: the radius is a real number, so `toFixed(2)` rounds exactly; on a double the rounding can differ at the 0.005 boundary (10.995 as a double gives "10.99").
- `src/ts/Game.ts` imports its enemy and player classes from `src/ts/entities/Enemy.ts` and `src/ts/entities/Player.ts`, which are not part of this model; `src/entities/Enemy.ts` and `src/entities/Player.ts` stand in for them.
- Enemies.UpdateEnemy: `src/ts/Game.ts:288` passes the player's position to `enemy.update`, but the stand-in `update` takes no target, so any homing on the player by the real enemy class is not modelled.

## Findings

| source | as written | input that shows it | evidently intended | confidence | as-written member | corrected member |
|---|---|---|---|---|---|---|
| src/ts/State.ts:80-82 | `key.split(KEY_PREFIX)[1]` keeps the dash `save` writes after the prefix, so a save made at time t has timestamp -t and `load` restores the OLDEST save | two saves at t1 = 1 and t2 = 2: the one at t1 is loaded | the newest save is loaded | high; not executed | Store.TimestampFromKey, Store.LoadPicksOldestSave | Store.FixedTimestampFromKey, Store.FixedLoadPicksNewestSave |
| src/ts/State.ts:51 | `this.state.toString()` is "[object Map]" for every map, so a save never carries the state (and `JSON.parse` rejects that text) | the states {a: 1} and {a: 2} save the same text | the state's serialisation is saved and a load restores it | high; not executed | Store.State.Save, Store.SaveCannotRestoreState | Store.State.SaveEncoded, Store.FixedSaveThenLoadRestoresNewest |

=== FILE: common.dfy ===
/** Shared vocabulary of the shooter model: optional values, error results,
    vectors, circles, colours, bounded random draws and JavaScript's
    `Array.prototype.splice` for the one-element removals the game uses. */
module Common {

  datatype Option<+T> = None | Some(value: T)

  datatype Result<+T, +E> = Ok(value: T) | Err(error: E)

  /** A position or a velocity on the canvas. */
  datatype Vec = Vec(x: real, y: real)

  /** The part of every entity that the collision test looks at. */
  datatype Circle = Circle(x: real, y: real, radius: real)

  /** A display colour: a CSS name such as "white", or `hsl(h, 50%, 50%)`. */
  datatype Color = Named(name: string) | Hsl(hue: real)

  /** One value of `Math.random()`: a real in [0, 1). */
  type Unit = r: real | 0.0 <= r < 1.0

  /** A `MovingCircle`: a circle with a colour and a constant velocity. The
      projectiles of both game loops and the enemies of the early loop are
      moving circles. */
  datatype Mover = Mover(x: real, y: real, radius: real, color: Color, velocity: Vec)
  {
    function Body(): Circle { Circle(x, y, radius) }
  }

  /** `MovingCircle.update`, drawing left out: the velocity is added to the
      position once. (The class is not part of this model; this is the rule
      every visible `update` of a moving entity follows.) */
  function Move(m: Mover): (r: Mover)
    ensures r.x - m.x == m.velocity.x && r.y - m.y == m.velocity.y
    ensures r.radius == m.radius && r.color == m.color && r.velocity == m.velocity
  {
    m.(x := m.x + m.velocity.x, y := m.y + m.velocity.y)
  }

  /** The bounds test of both game loops: the circle has left the canvas on
      the left, on the right, above or below. Note the mixed signs: the top
      test uses `y + radius`, the right test `x - radius`. */
  predicate OutOfBounds(c: Circle, width: nat, height: nat)
  {
    || c.x - c.radius < 0.0
    || c.x - c.radius > width as real
    || c.y + c.radius < 0.0
    || c.y - c.radius > height as real
  }

  /** `Math.random() * side`: a random point along a canvas dimension lies
      on the canvas. */
  function Scale(u: Unit, side: real): (v: real)
    requires side >= 0.0
    ensures 0.0 <= v <= side
    ensures side > 0.0 ==> v < side
  {
    var p := u * side;
    assert side > 0.0 ==> p < side by {
      if side > 0.0 {
        assert side - p == (1.0 - u) * side;
        assert (1.0 - u) * side > 0.0;
      }
    }
    p
  }

  /** The argument record of the velocity helper: origin, target and an
      optional speed (omitted by the callers that use the helper's default). */
  datatype Aim = Aim(oX: real, oY: real, tX: real, tY: real, speed: Option<real>)

  /** The helpers the simulation calls but whose code is not part of this
      model: the collision test, the aiming helper and `Math.hypot`. */
  datatype Helpers = Helpers(
    isColliding: (Circle, Circle) -> bool,
    getVelocity: Aim -> Vec,
    hypot: (real, real) -> real)

  /** `s.splice(start, 1, ...items)` on an array `s`, as JavaScript does it:
      the start is clamped to the length, at most one element is removed, and
      `items` is inserted where the removed element was. */
  function Splice<T>(s: seq<T>, start: nat, items: seq<T>): (r: seq<T>)
    ensures |r| == |s| - (if start < |s| then 1 else 0) + |items|
  {
    if start < |s| then s[..start] + items + s[start + 1..] else s + items
  }

  /** What `splice` leaves: with the start inside the array, the elements
      before it, then the inserted items, then the elements after the one
      removed; with the start at or past the end, the whole array followed
      by the items. */
  lemma SpliceContents<T>(s: seq<T>, start: nat, items: seq<T>)
    ensures var r := Splice(s, start, items);
      && (start < |s| ==>
            && r[..start] == s[..start]
            && r[start..start + |items|] == items
            && r[start + |items|..] == s[start + 1..])
      && (start >= |s| ==> r[..|s|] == s && r[|s|..] == items)
  {
  }

  /** Every element of `Splice(s, i, [])` comes from `s`, and what is not at
      index `i` survives in order: removal never invents or reorders. */
  lemma RemovalKeepsOthers<T>(s: seq<T>, i: nat, k: nat)
    requires k < |Splice(s, i, [])|
    ensures k < i ==> Splice(s, i, [])[k] == s[k]
    ensures k >= i ==> k + 1 < |s| && Splice(s, i, [])[k] == s[k + 1]
  {
  }

  /** Splicing at an index past the end of the array removes nothing. */
  lemma RemovalPastEndIsNoOp<T>(s: seq<T>, i: nat)
    requires i >= |s|
    ensures Splice(s, i, []) == s
  {
  }
}

=== FILE: controls.dfy ===
/** The page wiring of src/ts/index.ts: the start-up sequence and the
    click, mouse and keyboard handlers that steer the player, shoot, pause,
    resume and restart the later game. The restart button runs the same
    `Game.Restart` as the Tab key (plus a display reset). */
module Controls {
  import opened Common
  import opened Players
  import opened Rules
  import opened Shooter

  /** What a handler needs from outside when it starts frames or intervals:
      the helpers, the next frame's inputs, the handles the two intervals
      get, and the stats `initializeState` resets to. */
  datatype Outside = Outside(h: Helpers, frame: FrameInputs, enemyHandle: nat, powerUpHandle: nat,
                             resetStats: Stats)

  /** The player's velocity after a key goes down: D or right arrow sets the
      horizontal velocity to 1, A or left arrow to -1, W or up arrow sets the
      vertical velocity to -1, S or down arrow to 1; any other key leaves it. */
  function Pressed(v: Vec, code: string): (r: Vec)
  {
    if code == "KeyD" || code == "ArrowRight" then v.(x := 1.0)
    else if code == "KeyA" || code == "ArrowLeft" then v.(x := -1.0)
    else if code == "KeyW" || code == "ArrowUp" then v.(y := -1.0)
    else if code == "KeyS" || code == "ArrowDown" then v.(y := 1.0)
    else v
  }

  /** The player's velocity after a key goes up: releasing a horizontal key
      zeroes the horizontal velocity, a vertical key the vertical one. */
  function Released(v: Vec, code: string): (r: Vec)
  {
    if code in {"KeyD", "ArrowRight", "KeyA", "ArrowLeft"} then v.(x := 0.0)
    else if code in {"KeyW", "ArrowUp", "KeyS", "ArrowDown"} then v.(y := 0.0)
    else v
  }

  /** The keys that steer. */
  predicate Steers(code: string)
  {
    code in {"KeyD", "ArrowRight", "KeyA", "ArrowLeft", "KeyW", "ArrowUp", "KeyS", "ArrowDown"}
  }

  /** Pressing a steering key changes exactly one axis, to a unit speed;
      releasing it puts that axis back to rest and leaves the other one;
      keys that do not steer change nothing. */
  lemma PressAndRelease(v: Vec, code: string)
    ensures Steers(code) ==>
      var p := Pressed(v, code);
      || (p.y == v.y && (p.x == 1.0 || p.x == -1.0) && Released(p, code) == v.(x := 0.0))
      || (p.x == v.x && (p.y == 1.0 || p.y == -1.0) && Released(p, code) == v.(y := 0.0))
    ensures !Steers(code) ==> Pressed(v, code) == v && Released(v, code) == v
  {
  }

  /** Holding right and then pressing left moves the player left; releasing
      left then stops the player although right is still held. */
  lemma ReleaseStopsHeldOpposite(v: Vec)
    ensures Pressed(Pressed(v, "KeyD"), "KeyA").x == -1.0
    ensures Released(Pressed(Pressed(v, "KeyD"), "KeyA"), "KeyA").x == 0.0
  {
  }

  /** The status the Escape key leaves: a paused game is set up again, any
      other (up or down) is set paused. */
  function AfterEscape(s: GameStatus): (r: GameStatus)
  {
    if s == Paused then Up else Paused
  }

  /** Escape toggles between paused and up; from the game-over status it
      pauses, so a second Escape sets a game that was over back to up. */
  lemma EscapeToggles(s: GameStatus)
    ensures s != Paused ==> AfterEscape(s) == Paused
    ensures AfterEscape(AfterEscape(s)) == (if s == Paused then Paused else Up)
    ensures AfterEscape(AfterEscape(Down)) == Up
  {
  }

  /** A click shoots exactly when the persisted status is "up"; a missing
      or invalid value makes the status read throw. */
  lemma ClickFiresOnlyWhenPersistedUp(stored: Option<string>)
    ensures GetGameStatus(stored) == Ok(Up) <==> stored == Some("up")
    ensures GetGameStatus(stored).Err? <==> stored.None? || stored.value !in {"up", "down", "paused"}
  {
    if stored == Some("up") {
      PersistedStatusRoundTrip(Up);
    }
  }

  /** The key-down handler for the steering keys. */
  method Steer(player: Player, code: string)
    modifies player`vx, player`vy
    ensures Vec(player.vx, player.vy) == Pressed(old(Vec(player.vx, player.vy)), code)
  {
    if code == "KeyD" || code == "ArrowRight" {
      player.vx := 1.0;
    } else if code == "KeyA" || code == "ArrowLeft" {
      player.vx := -1.0;
    } else if code == "KeyW" || code == "ArrowUp" {
      player.vy := -1.0;
    } else if code == "KeyS" || code == "ArrowDown" {
      player.vy := 1.0;
    }
  }

  /** The key-up handler. */
  method KeyUp(player: Player, code: string)
    modifies player`vx, player`vy
    ensures Vec(player.vx, player.vy) == Released(old(Vec(player.vx, player.vy)), code)
  {
    if code in {"KeyD", "ArrowRight", "KeyA", "ArrowLeft"} {
      player.vx := 0.0;
    } else if code in {"KeyW", "ArrowUp", "KeyS", "ArrowDown"} {
      player.vy := 0.0;
    }
  }

  /** What the Escape key leaves: the status is `AfterEscape` of the old
      one. A paused game has been resumed (`Resumed`: one frame and a new
      enemy interval). Any other game has been stopped: a live frame is
      cancelled and dropped, a falsy handle is kept, and nothing else
      changes. Either way the new status is never persisted, so a click
      still reads the status of before. */
  twostate predicate Escaped(game: Game, o: Outside)
    reads game, game.player
  {
    && game.gameStatus == AfterEscape(old(game.gameStatus))
    && (old(game.gameStatus) == Paused ==> game.Resumed(o.h, o.frame, o.enemyHandle))
    && (old(game.gameStatus) != Paused ==>
          && !game.FrameLive()
          && (old(game.FrameLive()) ==>
                game.animationId == None && game.cancelledFrames == old(game.cancelledFrames) + {old(game.animationId).value})
          && (!old(game.FrameLive()) ==>
                game.animationId == old(game.animationId) && game.cancelledFrames == old(game.cancelledFrames))
          && game.player == old(game.player) && unchanged(game.player)
          && game.frames == old(game.frames) && game.stats == old(game.stats)
          && game.powerUps == old(game.powerUps) && game.expiryTimers == old(game.expiryTimers)
          && game.projectiles == old(game.projectiles) && game.particles == old(game.particles)
          && game.enemies == old(game.enemies) && game.pending == old(game.pending)
          && game.sessionStatus == old(game.sessionStatus) && game.intervalId == old(game.intervalId)
          && game.liveIntervals == old(game.liveIntervals))
  }

  /** The Escape branch of the key-down handler: resume a paused game and
      set it up, or stop any other and set it paused. */
  method Escape(game: Game, o: Outside)
    modifies game.player`x, game.player`y, game.player`vx, game.player`powerUp, game.player`color
    modifies game`animationId, game`frames, game`powerUps, game`expiryTimers
    modifies game`projectiles, game`particles, game`pending, game`enemies, game`stats
    modifies game`cancelledFrames, game`liveIntervals, game`gameStatus, game`sessionStatus
    modifies game`intervalId
    ensures Escaped(game, o)
  {
    if game.gameStatus == Paused {
      game.Resume(o.h, o.frame, o.enemyHandle);
      game.gameStatus := Up;
    } else {
      game.Stop();
      game.gameStatus := Paused;
    }
  }

  /** The key-down handler: steering keys set the velocity, Escape pauses
      or resumes, Tab restarts, and any other key does nothing. */
  method KeyDown(game: Game, code: string, o: Outside)
    modifies game.player`x, game.player`y, game.player`vx, game.player`vy
    modifies game.player`powerUp, game.player`color
    modifies game`animationId, game`frames, game`powerUps, game`expiryTimers
    modifies game`projectiles, game`particles, game`pending, game`enemies, game`stats
    modifies game`cancelledFrames, game`liveIntervals, game`gameStatus, game`sessionStatus
    modifies game`intervalId, game`spawnPowerUpsId
    ensures Steers(code) ==>
              Vec(game.player.vx, game.player.vy) == Pressed(old(Vec(game.player.vx, game.player.vy)), code)
              && unchanged(game) && unchanged(game.player`x, game.player`y, game.player`powerUp, game.player`color)
    ensures code == "Escape" ==> Escaped(game, o)
    ensures code == "Tab" ==> game.Restarted(o.resetStats, o.h, o.frame, o.enemyHandle, o.powerUpHandle)
    ensures !Steers(code) && code != "Escape" && code != "Tab" ==>
              unchanged(game, game.player)
  {
    if Steers(code) {
      Steer(game.player, code);
    } else if code == "Escape" {
      Escape(game, o);
    } else if code == "Tab" {
      game.Restart(o.resetStats, o.h, o.frame, o.enemyHandle, o.powerUpHandle);
    }
  }

  /** The click handler: shoot from the player toward the click when the
      persisted status is "up"; do nothing for "down" or "paused"; a
      missing or invalid value throws, which is the `Err` here. */
  method Click(game: Game, client: Vec, h: Helpers) returns (r: Result<bool, string>)
    modifies game`projectiles, game`stats
    ensures r.Err? <==> GetGameStatus(old(game.sessionStatus)).Err?
    ensures r == Ok(true) <==> game.sessionStatus == Some("up")
    ensures r == Ok(true) ==>
              game.projectiles == old(game.projectiles)
                + [Mover(game.player.x, game.player.y, 4.0, Named("white"),
                         h.getVelocity(Aim(game.player.x, game.player.y, client.x, client.y, Some(8.0))))]
              && game.stats == old(game.stats).(projectiles := old(game.stats).projectiles + 1)
    ensures r != Ok(true) ==> game.projectiles == old(game.projectiles) && game.stats == old(game.stats)
  {
    ClickFiresOnlyWhenPersistedUp(game.sessionStatus);
    var status := game.GetStatus();
    if status.Err? {
      return Err(status.error);
    }
    if status.value == Up {
      var origin := Vec(game.player.x, game.player.y);
      game.ShootProjectile(origin, client, h);
      r := Ok(true);
    } else {
      r := Ok(false);
    }
  }

  /** The mouse-move handler: the game remembers the pointer position. */
  method MouseMove(game: Game, client: Vec)
    modifies game`mouse
    ensures game.mouse == client
  {
    game.mouse := client;
  }

  /** The start-up sequence: a game (whose constructor stores the player,
      so the missing-player early return never happens), one frame, and the
      enemy and power-up intervals. Right after it the game
      is up with one frame counted and exactly the two intervals live. */
  method Start(width: nat, height: nat, upgrades: seq<Upgrade>, o: Outside)
    returns (game: Game)
    ensures fresh(game)
    ensures game.gameStatus == Up && game.sessionStatus == Some("up")
    ensures game.frames == 1 && game.animationId == Some(o.frame.frameHandle)
    ensures game.stats == DefaultStats && game.enemies == [] && game.particles == [] && game.pending == []
    ensures game.projectiles == [] && game.powerUps == []
    ensures game.liveIntervals == {o.enemyHandle, o.powerUpHandle}
    ensures game.intervalId == Some(o.enemyHandle) && game.spawnPowerUpsId == Some(o.powerUpHandle)
  {
    game := new Game(width, height, upgrades);
    game.Animate(o.h, o.frame);
    assert Touching(game.enemies, game.PlayerBody(), o.h) == 0;
    assert ParticleDrops([], o.frame.alphaDraws, width, height) == [];
    assert HitQueue([], game.projectiles, game.player.damage, o.h) == [];
    game.SpawnEnemies(o.enemyHandle);
    game.SpawnPowerUps(o.powerUpHandle);
  }
}

=== FILE: early_enemy.dfy ===
/** The enemies of the early game loop (src/Enemy.ts): an enemy is a moving
    circle whose radius is its only measure of health. */
module EarlyEnemies {
  import opened Common

  /** The four `Math.random()` values the early `Enemy.spawn` draws, in order:
      x, y, radius and hue. */
  datatype EarlyDraw = EarlyDraw(x: Unit, y: Unit, radius: Unit, hue: Unit)

  /** The early `new Enemy(x, y, radius, color, velocity)` hands every field
      to `MovingCircle` unchanged. */
  function NewEarlyEnemy(x: real, y: real, radius: real, color: Color, velocity: Vec): (e: Mover)
    ensures e.x == x && e.y == y && e.radius == radius
    ensures e.color == color && e.velocity == velocity
  {
    Mover(x, y, radius, color, velocity)
  }

  /** The early `Enemy.spawn(canvasWidth, canvasHeight)`: unlike the later
      one, it places the enemy on the canvas, with a radius in [10, 20) and
      the helper's velocity toward the centre at the default speed. */
  function SpawnEarlyEnemy(width: nat, height: nat, d: EarlyDraw, getVelocity: Aim -> Vec): (e: Mover)
    ensures 0.0 <= e.x <= width as real && (width > 0 ==> e.x < width as real)
    ensures 0.0 <= e.y <= height as real && (height > 0 ==> e.y < height as real)
    ensures 10.0 <= e.radius < 20.0
    ensures e.velocity == getVelocity(Aim(e.x, e.y, width as real / 2.0, height as real / 2.0, None))
    ensures e.color == Hsl(d.hue * 360.0)
  {
    var w, h := width as real, height as real;
    var oX := Scale(d.x, w);
    var oY := Scale(d.y, h);
    NewEarlyEnemy(oX, oY, d.radius * 10.0 + 10.0, Hsl(d.hue * 360.0),
                  getVelocity(Aim(oX, oY, w / 2.0, h / 2.0, None)))
  }
}

=== FILE: early_game.dfy ===
/** The early game loop of src/Game.ts. Its enemies are moving circles whose
    radius is their health: a hit on an enemy larger than 10 shrinks it by 10
    on the spot, a hit on a smaller one removes it. As in the later loop,
    every removal is a `setTimeout(…, 0)` callback that splices by the index
    it captured; `pending` holds them until `RunPending` plays them. */
module EarlyGame {
  import opened Common
  import opened EarlyEnemies

  /** A deferred removal of the early loop. */
  datatype EarlySplice =
    | RemoveProjectile(projectileIndex: nat)
    | RemoveEnemyAndProjectile(enemyIndex: nat, projectileIndex: nat)

  /** The removals the projectile pass schedules over the projectiles `ps`,
      taken after their move: one per projectile out of bounds. */
  function ProjectileSweep(ps: seq<Mover>, width: nat, height: nat): seq<EarlySplice>
    decreases |ps|
  {
    if ps == [] then []
    else
      var n := |ps| - 1;
      ProjectileSweep(ps[..n], width, height)
      + (if OutOfBounds(ps[n].Body(), width, height) then [RemoveProjectile(n)] else [])
  }

  /** The sweep schedules a removal for exactly the projectiles out of
      bounds. */
  lemma {:induction false} ProjectileSweepExact(ps: seq<Mover>, width: nat, height: nat)
    ensures forall c :: c in ProjectileSweep(ps, width, height) ==>
      c.RemoveProjectile? && c.projectileIndex < |ps| && OutOfBounds(ps[c.projectileIndex].Body(), width, height)
    ensures forall j :: 0 <= j < |ps| && OutOfBounds(ps[j].Body(), width, height) ==>
      RemoveProjectile(j) in ProjectileSweep(ps, width, height)
    decreases |ps|
  {
    if ps != [] {
      var n := |ps| - 1;
      ProjectileSweepExact(ps[..n], width, height);
      assert forall k :: 0 <= k < n ==> ps[..n][k] == ps[k];
    }
  }

  /** The result of scanning the projectiles against one enemy. */
  datatype ScanResult = ScanResult(enemy: Mover, scheduled: seq<EarlySplice>)

  /** The inner `forEach` of the early enemy loop over the projectiles `ps`
      for the enemy `e` at index `i`: each colliding projectile either
      shrinks the enemy by 10 at once (when its radius is above 10) and
      schedules its own removal, or schedules the removal of both. Later
      projectiles see the shrunk enemy. */
  function Scan(e: Mover, i: nat, ps: seq<Mover>, h: Helpers): ScanResult
    decreases |ps|
  {
    if ps == [] then ScanResult(e, [])
    else
      var n := |ps| - 1;
      var before := Scan(e, i, ps[..n], h);
      var cur := before.enemy;
      if !h.isColliding(ps[n].Body(), cur.Body()) then before
      else if cur.radius > 10.0 then
        ScanResult(cur.(radius := cur.radius - 10.0), before.scheduled + [RemoveProjectile(n)])
      else
        ScanResult(cur, before.scheduled + [RemoveEnemyAndProjectile(i, n)])
  }

  /** How many of the callbacks remove only a projectile. */
  function Shrinks(cs: seq<EarlySplice>): nat
  {
    if cs == [] then 0 else (if cs[0].RemoveProjectile? then 1 else 0) + Shrinks(cs[1..])
  }

  lemma {:induction false} ShrinksAppend(a: seq<EarlySplice>, b: seq<EarlySplice>)
    ensures Shrinks(a + b) == Shrinks(a) + Shrinks(b)
    decreases |a|
  {
    if a == [] {
      assert a + b == b;
    } else {
      assert (a + b)[1..] == a[1..] + b;
      ShrinksAppend(a[1..], b);
    }
  }

  /** What one scan does to its enemy: only the radius changes, by 10 per
      projectile-only removal it schedules; a positive radius stays
      positive; at most one callback per projectile, each naming this enemy
      and a projectile that exists; and a removal of the enemy is only
      scheduled once its radius is at most 10. */
  lemma {:induction false} ScanShrinks(e: Mover, i: nat, ps: seq<Mover>, h: Helpers)
    ensures var r := Scan(e, i, ps, h);
      && r.enemy == e.(radius := r.enemy.radius)
      && e.radius - r.enemy.radius == 10.0 * (Shrinks(r.scheduled) as real)
      && (e.radius > 0.0 ==> r.enemy.radius > 0.0)
      && |r.scheduled| <= |ps|
      && (forall c :: c in r.scheduled ==> c.projectileIndex < |ps|)
      && (forall c :: c in r.scheduled && c.RemoveEnemyAndProjectile? ==>
            c.enemyIndex == i && r.enemy.radius <= 10.0)
    decreases |ps|
  {
    if ps != [] {
      var n := |ps| - 1;
      ScanShrinks(e, i, ps[..n], h);
      var before := Scan(e, i, ps[..n], h);
      if h.isColliding(ps[n].Body(), before.enemy.Body()) {
        if before.enemy.radius > 10.0 {
          ShrinksAppend(before.scheduled, [RemoveProjectile(n)]);
          assert Shrinks([RemoveProjectile(n)]) == 1;
        } else {
          ShrinksAppend(before.scheduled, [RemoveEnemyAndProjectile(i, n)]);
          assert Shrinks([RemoveEnemyAndProjectile(i, n)]) == 0;
        }
      }
    }
  }

  /** The enemy as projectile `j` of the scan finds it: shrunk by every
      earlier projectile that hit it while its radius was above 10. */
  function EnemyBefore(e: Mover, i: nat, ps: seq<Mover>, j: nat, h: Helpers): Mover
    requires j <= |ps|
  {
    Scan(e, i, ps[..j], h).enemy
  }

  /** Dropping the last projectile does not change how the earlier ones
      find the enemy. */
  lemma EnemyBeforePrefix(e: Mover, i: nat, ps: seq<Mover>, n: nat, h: Helpers)
    requires n <= |ps|
    ensures forall j :: 0 <= j <= n ==> EnemyBefore(e, i, ps[..n], j, h) == EnemyBefore(e, i, ps, j, h)
  {
    assert forall j :: 0 <= j <= n ==> ps[..n][..j] == ps[..j];
  }

  /** Every callback of a scan names a projectile that collided with the
      enemy as it stood at that projectile's turn, chosen by the radius it
      then had. */
  lemma {:induction false} ScanCallbacksJustified(e: Mover, i: nat, ps: seq<Mover>, h: Helpers)
    ensures forall c :: c in Scan(e, i, ps, h).scheduled ==>
      && c.projectileIndex < |ps|
      && h.isColliding(ps[c.projectileIndex].Body(), EnemyBefore(e, i, ps, c.projectileIndex, h).Body())
      && (c.RemoveProjectile? <==> EnemyBefore(e, i, ps, c.projectileIndex, h).radius > 10.0)
      && (c.RemoveEnemyAndProjectile? ==> c.enemyIndex == i)
    decreases |ps|
  {
    if ps != [] {
      var n := |ps| - 1;
      ScanCallbacksJustified(e, i, ps[..n], h);
      EnemyBeforePrefix(e, i, ps, n, h);
      assert forall j :: 0 <= j < n ==> ps[..n][j] == ps[j];
    }
  }

  /** Every projectile that collides with the enemy as it stands at its
      turn schedules its callback: its own removal when the radius is then
      above 10, the removal of both at 10 or less. */
  lemma {:induction false} ScanHitsScheduled(e: Mover, i: nat, ps: seq<Mover>, h: Helpers)
    ensures forall j :: 0 <= j < |ps| && h.isColliding(ps[j].Body(), EnemyBefore(e, i, ps, j, h).Body()) ==>
      (if EnemyBefore(e, i, ps, j, h).radius > 10.0 then RemoveProjectile(j) else RemoveEnemyAndProjectile(i, j))
        in Scan(e, i, ps, h).scheduled
    decreases |ps|
  {
    if ps != [] {
      var n := |ps| - 1;
      var before := Scan(e, i, ps[..n], h);
      var after := Scan(e, i, ps, h);
      assert before.scheduled <= after.scheduled;
      ScanHitsScheduled(e, i, ps[..n], h);
      EnemyBeforePrefix(e, i, ps, n, h);
      forall j | 0 <= j < |ps| && h.isColliding(ps[j].Body(), EnemyBefore(e, i, ps, j, h).Body())
        ensures (if EnemyBefore(e, i, ps, j, h).radius > 10.0 then RemoveProjectile(j)
                 else RemoveEnemyAndProjectile(i, j)) in after.scheduled
      {
        if j < n {
          assert ps[..n][j] == ps[j];
        } else {
          assert EnemyBefore(e, i, ps, j, h) == before.enemy;
        }
      }
    }
  }

  /** The callbacks of a scan come in projectile order, at most one per
      projectile. */
  lemma {:induction false} ScanInOrder(e: Mover, i: nat, ps: seq<Mover>, h: Helpers)
    ensures forall c :: c in Scan(e, i, ps, h).scheduled ==> c.projectileIndex < |ps|
    ensures forall a, b :: 0 <= a < b < |Scan(e, i, ps, h).scheduled| ==>
      Scan(e, i, ps, h).scheduled[a].projectileIndex < Scan(e, i, ps, h).scheduled[b].projectileIndex
    decreases |ps|
  {
    if ps != [] {
      ScanInOrder(e, i, ps[..|ps| - 1], h);
    }
  }

  /** The hit rule of the early loop, both ways: a projectile schedules a
      callback exactly when it collides with the enemy as it stands at the
      projectile's turn; that callback is its own removal when the enemy's
      radius is then above 10 and the removal of both at 10 or less; and the
      callbacks come in projectile order, one per colliding projectile. */
  lemma ScanExact(e: Mover, i: nat, ps: seq<Mover>, h: Helpers)
    ensures forall c :: c in Scan(e, i, ps, h).scheduled ==>
      && c.projectileIndex < |ps|
      && h.isColliding(ps[c.projectileIndex].Body(), EnemyBefore(e, i, ps, c.projectileIndex, h).Body())
      && (c.RemoveProjectile? <==> EnemyBefore(e, i, ps, c.projectileIndex, h).radius > 10.0)
      && (c.RemoveEnemyAndProjectile? ==> c.enemyIndex == i)
    ensures forall j :: 0 <= j < |ps| && h.isColliding(ps[j].Body(), EnemyBefore(e, i, ps, j, h).Body()) ==>
      (if EnemyBefore(e, i, ps, j, h).radius > 10.0 then RemoveProjectile(j) else RemoveEnemyAndProjectile(i, j))
        in Scan(e, i, ps, h).scheduled
    ensures forall a, b :: 0 <= a < b < |Scan(e, i, ps, h).scheduled| ==>
      Scan(e, i, ps, h).scheduled[a].projectileIndex < Scan(e, i, ps, h).scheduled[b].projectileIndex
  {
    ScanCallbacksJustified(e, i, ps, h);
    ScanHitsScheduled(e, i, ps, h);
    ScanInOrder(e, i, ps, h);
  }

  /** The enemies and the callbacks the enemy loop leaves over the enemies
      `es`: each enemy moves and is then scanned against `ps`. */
  function EnemyLoop(es: seq<Mover>, ps: seq<Mover>, h: Helpers): ScanResults
    decreases |es|
  {
    if es == [] then ScanResults([], [])
    else
      var n := |es| - 1;
      var before := EnemyLoop(es[..n], ps, h);
      var r := Scan(Move(es[n]), n, ps, h);
      ScanResults(before.enemies + [r.enemy], before.scheduled + r.scheduled)
  }

  datatype ScanResults = ScanResults(enemies: seq<Mover>, scheduled: seq<EarlySplice>)

  lemma EnemyLoopStep(es: seq<Mover>, n: nat, ps: seq<Mover>, h: Helpers)
    requires n < |es|
    ensures var r := Scan(Move(es[n]), n, ps, h);
      EnemyLoop(es[..n + 1], ps, h)
        == ScanResults(EnemyLoop(es[..n], ps, h).enemies + [r.enemy], EnemyLoop(es[..n], ps, h).scheduled + r.scheduled)
  {
    assert es[..n + 1][..n] == es[..n];
  }

  lemma {:induction false} EnemyLoopLength(es: seq<Mover>, ps: seq<Mover>, h: Helpers)
    ensures |EnemyLoop(es, ps, h).enemies| == |es|
    decreases |es|
  {
    if es != [] {
      EnemyLoopLength(es[..|es| - 1], ps, h);
    }
  }

  /** Overwriting the first element after a prefix. */
  lemma ReplaceFirstOfRest<T>(done: seq<T>, rest: seq<T>, x: T)
    requires |rest| > 0
    ensures (done + rest)[|done| := x] == done + [x] + rest[1..]
  {
  }

  /** One turn of the enemy loop carries its state over the first `i`
      enemies to its state over the first `i + 1`. */
  /** The state of the enemy loop once it has run over the first `i` of the
      enemies `es`, starting from the queue `p0` and the cancelled set `c0`. */
  predicate LoopedOver(es: seq<Mover>, i: nat, ps: seq<Mover>, h: Helpers, player: Circle, id: nat,
                       p0: seq<EarlySplice>, c0: set<nat>,
                       enemies: seq<Mover>, pending: seq<EarlySplice>, cancelled: set<nat>)
  {
    && i <= |es|
    && enemies == EnemyLoop(es[..i], ps, h).enemies + es[i..]
    && pending == p0 + EnemyLoop(es[..i], ps, h).scheduled
    && cancelled == c0 + (if AnyTouch(es[..i], player, h) then {id} else {})
  }

  lemma AdvanceEnemyLoop(es: seq<Mover>, i: nat, ps: seq<Mover>, h: Helpers, player: Circle, id: nat,
                         p0: seq<EarlySplice>, c0: set<nat>,
                         enemies: seq<Mover>, pending: seq<EarlySplice>, cancelled: set<nat>)
    requires i < |es|
    requires LoopedOver(es, i, ps, h, player, id, p0, c0, enemies, pending, cancelled)
    ensures i < |enemies| && enemies[i] == es[i]
    ensures LoopedOver(es, i + 1, ps, h, player, id, p0, c0,
                       enemies[i := Scan(Move(enemies[i]), i, ps, h).enemy],
                       pending + Scan(Move(enemies[i]), i, ps, h).scheduled,
                       cancelled + (if h.isColliding(player, Move(enemies[i]).Body()) then {id} else {}))
  {
    EnemyLoopStep(es, i, ps, h);
    AnyTouchStep(es, i, player, h);
    EnemyLoopLength(es[..i], ps, h);
    var done := EnemyLoop(es[..i], ps, h).enemies;
    assert es[i..][0] == es[i] && es[i..][1..] == es[i + 1..];
    ReplaceFirstOfRest(done, es[i..], Scan(Move(es[i]), i, ps, h).enemy);
  }

  /** The loop keeps one enemy per enemy, in order: the one at index k is
      the k-th enemy moved and then scanned at index k. */
  lemma {:induction false} EnemyLoopPointwise(es: seq<Mover>, ps: seq<Mover>, h: Helpers)
    ensures |EnemyLoop(es, ps, h).enemies| == |es|
    ensures forall k :: 0 <= k < |es| ==> EnemyLoop(es, ps, h).enemies[k] == Scan(Move(es[k]), k, ps, h).enemy
    decreases |es|
  {
    if es != [] {
      var n := |es| - 1;
      EnemyLoopPointwise(es[..n], ps, h);
      assert forall k :: 0 <= k < n ==> es[..n][k] == es[k];
    }
  }

  /** Some enemy, after its move, touches the player. */
  predicate AnyTouch(es: seq<Mover>, player: Circle, h: Helpers)
  {
    exists k :: 0 <= k < |es| && h.isColliding(player, Move(es[k]).Body())
  }

  lemma AnyTouchStep(es: seq<Mover>, n: nat, player: Circle, h: Helpers)
    requires n < |es|
    ensures AnyTouch(es[..n + 1], player, h) <==> AnyTouch(es[..n], player, h) || h.isColliding(player, Move(es[n]).Body())
  {
    assert es[..n + 1][..n] == es[..n];
    if AnyTouch(es[..n + 1], player, h) {
      var k :| 0 <= k < n + 1 && h.isColliding(player, Move(es[..n + 1][k]).Body());
      if k < n { assert es[..n][k] == es[..n + 1][k]; }
    }
    if AnyTouch(es[..n], player, h) {
      var k :| 0 <= k < n && h.isColliding(player, Move(es[..n][k]).Body());
      assert es[..n + 1][k] == es[..n][k];
    }
    if h.isColliding(player, Move(es[n]).Body()) {
      assert es[..n + 1][n] == es[n];
    }
  }

  /** The two arrays the deferred removals splice. */
  datatype Arrays = Arrays(projectiles: seq<Mover>, enemies: seq<Mover>)

  /** One deferred removal run. */
  function RunSplice(a: Arrays, c: EarlySplice): Arrays
  {
    match c
    case RemoveProjectile(j) => a.(projectiles := Splice(a.projectiles, j, []))
    case RemoveEnemyAndProjectile(i, j) =>
      Arrays(Splice(a.projectiles, j, []), Splice(a.enemies, i, []))
  }

  /** The deferred removals run in the order they were scheduled. */
  function RunSplices(a: Arrays, cs: seq<EarlySplice>): Arrays
    decreases |cs|
  {
    if cs == [] then a else RunSplices(RunSplice(a, cs[0]), cs[1..])
  }

  /** Removals never add anything: each array ends no longer than it began,
      and shorter by at most the number of callbacks. */
  lemma {:induction false} RunSplicesShrink(a: Arrays, cs: seq<EarlySplice>)
    ensures |RunSplices(a, cs).projectiles| <= |a.projectiles|
    ensures |RunSplices(a, cs).enemies| <= |a.enemies|
    ensures |a.projectiles| - |RunSplices(a, cs).projectiles| <= |cs|
    decreases |cs|
  {
    if cs != [] {
      RunSplicesShrink(RunSplice(a, cs[0]), cs[1..]);
    }
  }

  /** Two projectiles finishing off the same small enemy in one frame
      schedule two removals of enemy index i: the second one removes the
      enemy that has moved into that index, which nothing hit. Shown for
      enemies [a, b, c] and the enemy at index 0 hit by the projectiles at 0
      and 1: only c is left, and of the projectiles [p, q, s] only q. */
  lemma DoubleKillRemovesNeighbour(a: Mover, b: Mover, c: Mover, p: Mover, q: Mover, s: Mover)
    ensures RunSplices(Arrays([p, q, s], [a, b, c]),
                       [RemoveEnemyAndProjectile(0, 0), RemoveEnemyAndProjectile(0, 1)])
         == Arrays([q], [c])
  {
    var cs := [RemoveEnemyAndProjectile(0, 0), RemoveEnemyAndProjectile(0, 1)];
    var a1 := RunSplice(Arrays([p, q, s], [a, b, c]), cs[0]);
    assert a1 == Arrays([q, s], [b, c]);
    var a2 := RunSplice(a1, cs[1]);
    assert a2 == Arrays([q], [c]);
    assert cs[1..][1..] == [];
  }

  /** The early `Game`. The player is a plain circle that never changes. */
  class Game {
    var width: nat
    var height: nat
    var projectiles: seq<Mover>
    var enemies: seq<Mover>
    var player: Circle
    var playerColor: Color
    var animationId: Option<nat>
    /** the animation-frame handles cancelled so far */
    var cancelledFrames: set<nat>
    /** how many enemy-spawn intervals run */
    var spawnIntervals: nat
    /** `setTimeout(…, 0)` callbacks not yet run */
    var pending: seq<EarlySplice>

    /** `new Game(canvas)` on a canvas of the given size: no frame, empty
        arrays, and the default player at the centre. */
    constructor (width: nat, height: nat)
      ensures this.width == width && this.height == height
      ensures animationId == None && projectiles == [] && enemies == []
      ensures player == Circle(width as real / 2.0, height as real / 2.0, 20.0)
      ensures playerColor == Named("aqua")
      ensures cancelledFrames == {} && spawnIntervals == 0 && pending == []
    {
      this.width := width;
      this.height := height;
      animationId := None;
      projectiles := [];
      enemies := [];
      var body, color := CreatePlayer(width, height, None, None);
      player := body;
      playerColor := color;
      cancelledFrames := {};
      spawnIntervals := 0;
      pending := [];
    }

    /** `createPlayer({radius, color})`: a player at the canvas centre, radius
        20 and colour 'aqua' unless given. */
    static method CreatePlayer(width: nat, height: nat, radius: Option<real>, color: Option<Color>)
      returns (body: Circle, c: Color)
      ensures body.x == width as real / 2.0 && body.y == height as real / 2.0
      ensures radius.Some? ==> body.radius == radius.value
      ensures radius.None? ==> body.radius == 20.0
      ensures color.Some? ==> c == color.value
      ensures color.None? ==> c == Named("aqua")
    {
      body := Circle(width as real / 2.0, height as real / 2.0, if radius.Some? then radius.value else 20.0);
      c := if color.Some? then color.value else Named("aqua");
    }

    /** `spawnEnemies`: one more interval that spawns an enemy every second. */
    method SpawnEnemies()
      modifies this`spawnIntervals
      ensures spawnIntervals == old(spawnIntervals) + 1
    {
      spawnIntervals := spawnIntervals + 1;
    }

    /** One tick of a spawn interval: an early enemy is pushed. */
    method SpawnEnemyTick(d: EarlyDraw, h: Helpers)
      modifies this`enemies
      ensures enemies == old(enemies) + [SpawnEarlyEnemy(width, height, d, h.getVelocity)]
    {
      enemies := enemies + [SpawnEarlyEnemy(width, height, d, h.getVelocity)];
    }

    /** `shootProjectile(clientX, clientY)`: a white projectile of radius 5
        leaves the canvas centre toward the click at speed 4. */
    method ShootProjectile(clientX: real, clientY: real, h: Helpers)
      modifies this`projectiles
      ensures |projectiles| == |old(projectiles)| + 1
      ensures projectiles[..|old(projectiles)|] == old(projectiles)
      ensures var p := projectiles[|projectiles| - 1];
        && p.x == width as real / 2.0 && p.y == height as real / 2.0
        && p.radius == 5.0 && p.color == Named("white")
        && p.velocity == h.getVelocity(Aim(p.x, p.y, clientX, clientY, Some(4.0)))
    {
      var x, y := width as real / 2.0, height as real / 2.0;
      var velocity := h.getVelocity(Aim(x, y, clientX, clientY, Some(4.0)));
      projectiles := projectiles + [Mover(x, y, 5.0, Named("white"), velocity)];
    }

    /** The projectile `forEach` of the early `animate`: each projectile
        moves, and one out of bounds after its move is scheduled for
        removal. */
    method ProjectilePass()
      modifies this`projectiles, this`pending
      ensures |projectiles| == |old(projectiles)|
      ensures forall k :: 0 <= k < |projectiles| ==> projectiles[k] == Move(old(projectiles)[k])
      ensures pending == old(pending) + ProjectileSweep(projectiles, width, height)
    {
      var index := 0;
      while index < |projectiles|
        invariant 0 <= index <= |projectiles| == |old(projectiles)|
        invariant forall k :: 0 <= k < index ==> projectiles[k] == Move(old(projectiles)[k])
        invariant forall k :: index <= k < |projectiles| ==> projectiles[k] == old(projectiles)[k]
        invariant pending == old(pending) + ProjectileSweep(projectiles[..index], width, height)
      {
        var p := Move(projectiles[index]);
        projectiles := projectiles[index := p];
        assert projectiles[..index + 1][..index] == projectiles[..index];
        if OutOfBounds(p.Body(), width, height) {
          pending := pending + [RemoveProjectile(index)];
        }
        index := index + 1;
      }
      assert projectiles[..index] == projectiles;
    }

    /** The inner `forEach` for the enemy at index `i`, shrinking it in place
        as projectiles hit it. */
    method ScanEnemy(i: nat, h: Helpers)
      requires i < |enemies|
      modifies this`enemies, this`pending
      ensures enemies == old(enemies)[i := Scan(old(enemies)[i], i, projectiles, h).enemy]
      ensures pending == old(pending) + Scan(old(enemies)[i], i, projectiles, h).scheduled
    {
      var j := 0;
      while j < |projectiles|
        invariant 0 <= j <= |projectiles| && |enemies| == |old(enemies)|
        invariant enemies == old(enemies)[i := Scan(old(enemies)[i], i, projectiles[..j], h).enemy]
        invariant pending == old(pending) + Scan(old(enemies)[i], i, projectiles[..j], h).scheduled
      {
        assert projectiles[..j + 1][..j] == projectiles[..j];
        var projectile := projectiles[j];
        var enemy := enemies[i];
        if h.isColliding(projectile.Body(), enemy.Body()) {
          if enemy.radius > 10.0 {
            enemies := enemies[i := enemy.(radius := enemy.radius - 10.0)];
            pending := pending + [RemoveProjectile(j)];
          } else {
            pending := pending + [RemoveEnemyAndProjectile(i, j)];
          }
        }
        j := j + 1;
      }
      assert projectiles[..j] == projectiles;
    }

    /** One turn of the early enemy loop, on the enemy at index `i`: it
        moves; if it touches the player the current frame is cancelled (the
        handle is kept, and the loop goes on); then the projectiles are
        scanned against it. */
    method StepEnemyAt(i: nat, h: Helpers)
      requires i < |enemies| && animationId.Some?
      modifies this`enemies, this`pending, this`cancelledFrames
      ensures enemies == old(enemies)[i := Scan(Move(old(enemies)[i]), i, projectiles, h).enemy]
      ensures pending == old(pending) + Scan(Move(old(enemies)[i]), i, projectiles, h).scheduled
      ensures cancelledFrames == old(cancelledFrames)
                + (if h.isColliding(player, Move(old(enemies)[i]).Body()) then {animationId.value} else {})
    {
      enemies := enemies[i := Move(enemies[i])];
      if h.isColliding(player, enemies[i].Body()) {
        cancelledFrames := cancelledFrames + {animationId.value};
      }
      ScanEnemy(i, h);
    }

    /** The enemy `for` loop of the early `animate`, enemy by enemy. */
    method EnemyPass(h: Helpers)
      requires animationId.Some?
      modifies this`enemies, this`pending, this`cancelledFrames
      ensures enemies == EnemyLoop(old(enemies), projectiles, h).enemies
      ensures pending == old(pending) + EnemyLoop(old(enemies), projectiles, h).scheduled
      ensures cancelledFrames == old(cancelledFrames)
                + (if AnyTouch(old(enemies), player, h) then {animationId.value} else {})
    {
      ghost var es, ps, pl, id := enemies, projectiles, player, animationId.value;
      assert es[..0] == [] && es[0..] == es;
      var i := 0;
      while i < |enemies|
        invariant |es| == |enemies|
        invariant LoopedOver(es, i, ps, h, pl, id, old(pending), old(cancelledFrames), enemies, pending, cancelledFrames)
      {
        AdvanceEnemyLoop(es, i, ps, h, pl, id, old(pending), old(cancelledFrames), enemies, pending, cancelledFrames);
        StepEnemyAt(i, h);
        i := i + 1;
      }
      assert es[..i] == es && es[i..] == [];
    }

    /** One early `animate` call: request the next frame, then the
        projectile pass and the enemy loop. */
    method Animate(h: Helpers, frameHandle: nat)
      modifies this`animationId, this`projectiles, this`enemies, this`pending, this`cancelledFrames
      ensures animationId == Some(frameHandle)
      ensures |projectiles| == |old(projectiles)|
      ensures forall k :: 0 <= k < |projectiles| ==> projectiles[k] == Move(old(projectiles)[k])
      ensures enemies == EnemyLoop(old(enemies), projectiles, h).enemies
      ensures pending == old(pending) + ProjectileSweep(projectiles, width, height)
                         + EnemyLoop(old(enemies), projectiles, h).scheduled
      ensures cancelledFrames == old(cancelledFrames) + (if AnyTouch(old(enemies), player, h) then {frameHandle} else {})
    {
      animationId := Some(frameHandle);
      ProjectilePass();
      EnemyPass(h);
    }

    /** The deferred removals running after the frame, in order. */
    method RunPending()
      modifies this`projectiles, this`enemies, this`pending
      ensures Arrays(projectiles, enemies) == RunSplices(old(Arrays(projectiles, enemies)), old(pending))
      ensures pending == []
    {
      while pending != []
        invariant RunSplices(Arrays(projectiles, enemies), pending)
               == RunSplices(old(Arrays(projectiles, enemies)), old(pending))
        decreases |pending|
      {
        var a := RunSplice(Arrays(projectiles, enemies), pending[0]);
        projectiles, enemies := a.projectiles, a.enemies;
        pending := pending[1..];
      }
    }
  }

  /** `Game.run()`: a game on the canvas, its first frame, and one
      enemy-spawn interval; clicks then go to `ShootProjectile`. Right after
      it nothing has been scheduled or cancelled. */
  method Run(width: nat, height: nat, h: Helpers, frameHandle: nat) returns (game: Game)
    ensures fresh(game)
    ensures game.animationId == Some(frameHandle) && game.spawnIntervals == 1
    ensures game.projectiles == [] && game.enemies == []
    ensures game.pending == [] && game.cancelledFrames == {}
  {
    game := new Game(width, height);
    game.Animate(h, frameHandle);
    assert ProjectileSweep([], width, height) == [];
    assert EnemyLoop([], [], h) == ScanResults([], []);
    game.SpawnEnemies();
  }
}

=== FILE: enemies.dfy ===
/** The enemies of the later game loop (src/entities/Enemy.ts): an enemy has
    an integer health besides its radius, spawns just outside one edge of the
    canvas and drifts toward the canvas centre. An enemy object is only ever
    moved by `update` or replaced whole, so it is a value here. */
module Enemies {
  import opened Common

  /** `new Enemy({x, y, health, radius, color, velocity})` stores every field
      as given; the datatype constructor is that constructor. */
  datatype Enemy = Enemy(x: real, y: real, health: int, radius: real, color: Color, velocity: Vec)
  {
    function Body(): Circle { Circle(x, y, radius) }
  }

  /** `parseInt(v.toFixed(0))` for a non-negative `v`: round to the nearest
      integer, halves upward. */
  function RoundToInt(v: real): (n: int)
    requires v >= 0.0
    ensures n as real - 0.5 <= v < n as real + 0.5
    ensures n >= 0
  {
    (v + 0.5).Floor
  }

  /** The five `Math.random()` values `Enemy.spawn` draws, in order: the
      health, the choice of a vertical or a horizontal edge, two values whose
      roles depend on that choice, and the hue. */
  datatype EnemyDraw = EnemyDraw(health: Unit, axis: Unit, third: Unit, fourth: Unit, hue: Unit)

  /** The spawn point lies just outside the left or right edge at a height on
      the canvas, or just outside the top or bottom edge at a width on the
      canvas. */
  predicate JustOffEdge(e: Enemy, width: nat, height: nat)
  {
    var w, h, r := width as real, height as real, e.radius;
    || ((e.x == -r || e.x == w + r) && 0.0 <= e.y <= h && (height > 0 ==> e.y < h))
    || ((e.y == -r || e.y == h + r) && 0.0 <= e.x <= w && (width > 0 ==> e.x < w))
  }

  /** `Enemy.spawn(canvasWidth, canvasHeight)`: the health is an integer in
      10..20 and the radius equals it; the enemy starts just off one edge and
      its velocity is the helper's velocity from there toward the centre,
      with the helper's default speed. */
  function SpawnEnemy(width: nat, height: nat, d: EnemyDraw, getVelocity: Aim -> Vec): (e: Enemy)
    ensures 10 <= e.health <= 20 && e.radius == e.health as real
    ensures JustOffEdge(e, width, height)
    ensures e.velocity == getVelocity(Aim(e.x, e.y, width as real / 2.0, height as real / 2.0, None))
    ensures e.color == Hsl(d.hue * 360.0)
  {
    var health := RoundToInt(d.health * 10.0 + 10.0);
    var radius := health as real;
    var w, h := width as real, height as real;
    var (oX, oY) :=
      if d.axis < 0.5 then
        (if d.third < 0.5 then 0.0 - radius else w + radius, Scale(d.fourth, h))
      else
        (Scale(d.third, w), if d.fourth < 0.5 then 0.0 - radius else h + radius);
    Enemy(oX, oY, health, radius, Hsl(d.hue * 360.0),
          getVelocity(Aim(oX, oY, w / 2.0, h / 2.0, None)))
  }

  /** `Enemy.update(context)`, drawing left out: the velocity is added to the
      position once and nothing else changes. */
  function UpdateEnemy(e: Enemy): (r: Enemy)
    ensures r.x - e.x == e.velocity.x && r.y - e.y == e.velocity.y
    ensures r.health == e.health && r.radius == e.radius && r.color == e.color
    ensures r.velocity == e.velocity
  {
    e.(x := e.x + e.velocity.x, y := e.y + e.velocity.y)
  }
}

=== FILE: game.dfy ===
/** The later game loop of src/ts/Game.ts: the `Game` class, its entity
    arrays, its frame counter, its status and its handles, and the passes of
    `animate`. The module-level `state` of src/ts/index.ts (player, stats,
    enemy-spawn interval) and the session-storage status flag are fields of
    the game here. Every `setTimeout(…, 0)` of a pass appends to `pending`;
    `RunPending` plays them afterwards. */
module Shooter {
  import opened Common
  import opened Players
  import opened Enemies
  import opened Rules
  import opened GameRules

  /** A power-up: its position, its constant velocity and the height of its
      image. (src/ts/entities/PowerUp.ts is not part of this model.) */
  datatype PowerUp = PowerUp(x: real, y: real, velocity: Vec, imageHeight: real)

  /** `PowerUp.update`, assumed to add the velocity to the position once. */
  function MovePowerUp(u: PowerUp): PowerUp
  {
    u.(x := u.x + u.velocity.x, y := u.y + u.velocity.y)
  }

  /** The power-ups `us` after one move each. */
  function MovedAll(us: seq<PowerUp>): set<PowerUp>
  {
    set u | u in us :: MovePowerUp(u)
  }

  /** The pickup test of the power-up pass: the `Math.hypot` helper's
      distance from the player's centre to the power-up is below half the
      image height plus the player's radius. */
  predicate Collects(u: PowerUp, player: Circle, h: Helpers)
  {
    h.hypot(player.x - u.x, player.y - u.y) < u.imageHeight / 2.0 + player.radius
  }

  /** One call of the power-up pass's callback at index `i` of `us`, with
      whether it was a pickup. Past the end (after earlier splices) nothing
      happens. A power-up past the right edge is spliced out, any other is
      moved; then the power-up, at the position the callback holds, is tested
      against the player, and on a pickup whatever now sits at index `i` is
      spliced out. */
  function PowerUpStep(us: seq<PowerUp>, i: nat, width: nat, player: Circle, h: Helpers): (seq<PowerUp>, bool)
  {
    if i >= |us| then (us, false)
    else
      var u := if us[i].x > width as real then us[i] else MovePowerUp(us[i]);
      var kept := if us[i].x > width as real then Splice(us, i, []) else us[i := u];
      if Collects(u, player, h) then (Splice(kept, i, []), true) else (kept, false)
  }

  /** The first `n` callbacks of the power-up pass's `forEach` over `us`,
      at indices 0 to n - 1: the array they leave and the number of pickups.
      The whole pass is `n == |us|`, the length when the walk began. */
  function PowerUpWalk(us: seq<PowerUp>, n: nat, width: nat, player: Circle, h: Helpers): (seq<PowerUp>, nat)
    decreases n
  {
    if n == 0 then (us, 0)
    else
      var before := PowerUpWalk(us, n - 1, width, player, h);
      var step := PowerUpStep(before.0, n - 1, width, player, h);
      (step.0, before.1 + if step.1 then 1 else 0)
  }

  /** What one callback does, in terms of the array it found: a power-up
      past the right edge is removed, and it is STILL tested against the
      player at its unmoved position; on a pickup the element after it,
      which the first splice moved into its index, is removed as well. A
      power-up on the canvas is moved, and removed on a pickup. */
  lemma PowerUpStepEffects(us: seq<PowerUp>, i: nat, width: nat, player: Circle, h: Helpers)
    requires i < |us|
    ensures var r := PowerUpStep(us, i, width, player, h);
      && (us[i].x > width as real ==> r.1 == Collects(us[i], player, h))
      && (us[i].x > width as real && !r.1 ==> r.0 == us[..i] + us[i + 1..])
      && (us[i].x > width as real && r.1 ==>
            r.0 == us[..i] + (if i + 1 < |us| then us[i + 2..] else []))
      && (us[i].x <= width as real ==> r.1 == Collects(MovePowerUp(us[i]), player, h))
      && (us[i].x <= width as real && !r.1 ==> r.0 == us[..i] + [MovePowerUp(us[i])] + us[i + 1..])
      && (us[i].x <= width as real && r.1 ==> r.0 == us[..i] + us[i + 1..])
  {
    var r := PowerUpStep(us, i, width, player, h);
    if us[i].x > width as real {
      var kept := Splice(us, i, []);
      assert kept == us[..i] + us[i + 1..];
      if r.1 && i + 1 < |us| {
        assert Splice(kept, i, []) == kept[..i] + kept[i + 1..];
        assert kept[..i] == us[..i] && kept[i + 1..] == us[i + 2..];
      }
    } else {
      var kept := us[i := MovePowerUp(us[i])];
      assert kept == us[..i] + [MovePowerUp(us[i])] + us[i + 1..];
      if r.1 {
        assert Splice(kept, i, []) == kept[..i] + kept[i + 1..];
        assert kept[..i] == us[..i] && kept[i + 1..] == us[i + 1..];
      }
    }
  }

  /** The walk invents nothing and never grows the array: every power-up it
      leaves was there before, moved once or not at all; those at or past
      the next index to visit are unmoved; and there are at most as many
      pickups as callbacks. */
  lemma {:induction false} PowerUpWalkDrawsFrom(us: seq<PowerUp>, n: nat, width: nat, player: Circle, h: Helpers)
    ensures |PowerUpWalk(us, n, width, player, h).0| <= |us|
    ensures forall k :: 0 <= k < |PowerUpWalk(us, n, width, player, h).0| ==>
      PowerUpWalk(us, n, width, player, h).0[k] in us
      || PowerUpWalk(us, n, width, player, h).0[k] in MovedAll(us)
    ensures forall k :: n <= k < |PowerUpWalk(us, n, width, player, h).0| ==>
      PowerUpWalk(us, n, width, player, h).0[k] in us
    ensures PowerUpWalk(us, n, width, player, h).1 <= n
    decreases n
  {
    if n > 0 {
      var i := n - 1;
      PowerUpWalkDrawsFrom(us, i, width, player, h);
      var before := PowerUpWalk(us, i, width, player, h).0;
      var after := PowerUpStep(before, i, width, player, h).0;
      if i < |before| {
        PowerUpStepDrawsFrom(before, i, width, player, h);
        assert MovePowerUp(before[i]) in MovedAll(us);
      }
    }
  }

  /** One callback keeps or moves the power-up at its index and otherwise
      only removes: what it leaves past that index was past it before. */
  lemma PowerUpStepDrawsFrom(us: seq<PowerUp>, i: nat, width: nat, player: Circle, h: Helpers)
    requires i < |us|
    ensures var after := PowerUpStep(us, i, width, player, h).0;
      && |after| <= |us|
      && (forall k :: 0 <= k < |after| ==> after[k] in us || after[k] == MovePowerUp(us[i]))
      && (forall k :: i + 1 <= k < |after| ==> after[k] in us[i + 1..])
  {
    PowerUpStepEffects(us, i, width, player, h);
  }

  /** What one frame needs from outside: the handle `requestAnimationFrame`
      returns, the aimed velocity of a rapid-fire shot, and a random draw for
      each particle's alpha decay. */
  datatype FrameInputs = FrameInputs(frameHandle: nat, gunVelocity: Vec, alphaDraws: nat -> Unit)

  /** A particle after the particle pass: a faded one is left alone, a
      visible one is updated. */
  function StepParticle(p: Particle, rnd: Unit): Particle
  {
    if p.alpha <= 0.0 then p else UpdateParticle(p, rnd)
  }

  /** The removals the particle pass schedules for the particle at `index`:
      one when it had faded, and one more when, after the step, it is out of
      bounds. */
  function ParticleDropsAt(p: Particle, rnd: Unit, index: nat, width: nat, height: nat): seq<Callback>
  {
    (if p.alpha <= 0.0 then [DropParticle(index)] else [])
    + (if OutOfBounds(StepParticle(p, rnd).Body(), width, height) then [DropParticle(index)] else [])
  }

  /** Everything the particle pass schedules over the particles `ps`, in
      index order. */
  function ParticleDrops(ps: seq<Particle>, draws: nat -> Unit, width: nat, height: nat): seq<Callback>
    decreases |ps|
  {
    if ps == [] then []
    else
      var n := |ps| - 1;
      ParticleDrops(ps[..n], draws, width, height) + ParticleDropsAt(ps[n], draws(n), n, width, height)
  }

  /** How many removals the particle pass schedules for one particle: one
      for having faded, one more for being out of bounds after its step. */
  function DropsFor(p: Particle, rnd: Unit, width: nat, height: nat): nat
  {
    (if p.alpha <= 0.0 then 1 else 0) + (if OutOfBounds(StepParticle(p, rnd).Body(), width, height) then 1 else 0)
  }

  /** The particle pass only ever schedules particle removals, by indices
      that existed when it ran. */
  lemma {:induction false} ParticleDropsIndices(ps: seq<Particle>, draws: nat -> Unit, width: nat, height: nat)
    ensures forall c :: c in ParticleDrops(ps, draws, width, height) ==> c.DropParticle? && c.index < |ps|
    decreases |ps|
  {
    if ps != [] {
      ParticleDropsIndices(ps[..|ps| - 1], draws, width, height);
    }
  }

  /** The particle at index k is scheduled for removal exactly
      `DropsFor(ps[k], …)` times. */
  lemma {:induction false} ParticleDropCounts(ps: seq<Particle>, draws: nat -> Unit, width: nat, height: nat)
    ensures forall k :: 0 <= k < |ps| ==>
      multiset(ParticleDrops(ps, draws, width, height))[DropParticle(k)] == DropsFor(ps[k], draws(k), width, height)
    decreases |ps|
  {
    if ps != [] {
      var n := |ps| - 1;
      var front := ParticleDrops(ps[..n], draws, width, height);
      var last := ParticleDropsAt(ps[n], draws(n), n, width, height);
      assert ParticleDrops(ps, draws, width, height) == front + last;
      ParticleDropCounts(ps[..n], draws, width, height);
      ParticleDropsIndices(ps[..n], draws, width, height);
      forall k | 0 <= k < |ps|
        ensures multiset(front + last)[DropParticle(k)] == DropsFor(ps[k], draws(k), width, height)
      {
        assert multiset(front + last)[DropParticle(k)]
            == multiset(front)[DropParticle(k)] + multiset(last)[DropParticle(k)];
        if k < n {
          assert ps[..n][k] == ps[k];
          assert DropParticle(k) !in last;
        } else {
          assert DropParticle(n) !in front;
        }
      }
    }
  }

  /** What the particle pass schedules: only removals of existing indices;
      a removal for every faded particle and for every particle out of
      bounds after its step; and TWO for a particle that is both, so that
      the second splice removes its neighbour. */
  lemma ParticleDropsCover(ps: seq<Particle>, draws: nat -> Unit, width: nat, height: nat)
    ensures forall c :: c in ParticleDrops(ps, draws, width, height) ==> c.DropParticle? && c.index < |ps|
    ensures forall k :: 0 <= k < |ps| && ps[k].alpha <= 0.0 ==> DropParticle(k) in ParticleDrops(ps, draws, width, height)
    ensures forall k :: 0 <= k < |ps| && OutOfBounds(StepParticle(ps[k], draws(k)).Body(), width, height) ==>
      DropParticle(k) in ParticleDrops(ps, draws, width, height)
    ensures forall k :: 0 <= k < |ps| && ps[k].alpha <= 0.0 && OutOfBounds(ps[k].Body(), width, height) ==>
      multiset(ParticleDrops(ps, draws, width, height))[DropParticle(k)] == 2
  {
    ParticleDropsIndices(ps, draws, width, height);
    ParticleDropCounts(ps, draws, width, height);
  }

  /** The particle pass over one more particle schedules that particle's
      removals after the earlier ones. */
  lemma ParticleDropsStep(ps: seq<Particle>, n: nat, draws: nat -> Unit, width: nat, height: nat)
    requires n < |ps|
    ensures ParticleDrops(ps[..n + 1], draws, width, height)
         == ParticleDrops(ps[..n], draws, width, height) + ParticleDropsAt(ps[n], draws(n), n, width, height)
  {
    assert ps[..n + 1][..n] == ps[..n];
  }

  /** The hit callbacks scheduled for the enemy `e` at index `i` against the
      projectiles `ps`, in projectile order: one per projectile that collides
      with it, each carrying `e.health - damage`. */
  function Hits(e: Enemy, i: nat, ps: seq<Mover>, damage: int, h: Helpers): seq<Callback>
    decreases |ps|
  {
    if ps == [] then []
    else
      var n := |ps| - 1;
      Hits(e, i, ps[..n], damage, h)
      + (if h.isColliding(ps[n].Body(), e.Body()) then [ResolveHit(i, e, n, ps[n], e.health - damage)] else [])
  }

  /** The hit callbacks of one enemy are exactly one per colliding
      projectile: each names the enemy, its index, a colliding projectile and
      its index, and the enemy's health minus the damage; and no colliding
      projectile is missed. */
  lemma {:induction false} HitsExact(e: Enemy, i: nat, ps: seq<Mover>, damage: int, h: Helpers)
    ensures forall c :: c in Hits(e, i, ps, damage, h) ==>
      c.ResolveHit? && c.enemyIndex == i && c.enemy == e && c.projectileIndex < |ps|
      && c.projectile == ps[c.projectileIndex] && c.updatedHealth == e.health - damage
      && h.isColliding(ps[c.projectileIndex].Body(), e.Body())
    ensures forall j :: 0 <= j < |ps| && h.isColliding(ps[j].Body(), e.Body()) ==>
      ResolveHit(i, e, j, ps[j], e.health - damage) in Hits(e, i, ps, damage, h)
    decreases |ps|
  {
    if ps != [] {
      var n := |ps| - 1;
      HitsExact(e, i, ps[..n], damage, h);
      assert forall k :: 0 <= k < n ==> ps[..n][k] == ps[k];
    }
  }

  /** All hit callbacks of the enemy pass, enemy by enemy. */
  function HitQueue(es: seq<Enemy>, ps: seq<Mover>, damage: int, h: Helpers): seq<Callback>
    decreases |es|
  {
    if es == [] then []
    else
      var n := |es| - 1;
      HitQueue(es[..n], ps, damage, h) + Hits(es[n], n, ps, damage, h)
  }

  /** The hit queue and the touch count over one more enemy. */
  lemma EnemyStep(es: seq<Enemy>, n: nat, ps: seq<Mover>, damage: int, player: Circle, h: Helpers)
    requires n < |es|
    ensures HitQueue(es[..n + 1], ps, damage, h) == HitQueue(es[..n], ps, damage, h) + Hits(es[n], n, ps, damage, h)
    ensures Touching(es[..n + 1], player, h)
         == Touching(es[..n], player, h) + (if h.isColliding(player, es[n].Body()) then 1 else 0)
  {
    assert es[..n + 1][..n] == es[..n];
  }

  /** One turn of the enemy pass carries its state over the first `i`
      enemies to its state over the first `i + 1`. */
  lemma AdvanceEnemyPass(es: seq<Enemy>, i: nat, enemies: seq<Enemy>, ps: seq<Mover>, damage: int,
                         player: Circle, h: Helpers)
    requires i < |es| == |enemies|
    requires forall k :: 0 <= k < i ==> enemies[k] == UpdateEnemy(es[k])
    requires forall k :: i <= k < |enemies| ==> enemies[k] == es[k]
    ensures var next := enemies[i := UpdateEnemy(enemies[i])];
      && (forall k :: 0 <= k < i + 1 ==> next[k] == UpdateEnemy(es[k]))
      && (forall k :: i + 1 <= k < |next| ==> next[k] == es[k])
      && HitQueue(next[..i + 1], ps, damage, h) == HitQueue(enemies[..i], ps, damage, h) + Hits(next[i], i, ps, damage, h)
      && Touching(next[..i + 1], player, h)
         == Touching(enemies[..i], player, h) + (if h.isColliding(player, next[i].Body()) then 1 else 0)
  {
    var next := enemies[i := UpdateEnemy(enemies[i])];
    assert next[..i] == enemies[..i];
    EnemyStep(next, i, ps, damage, player, h);
  }

  /** How many of the enemies touch the player's circle. */
  function Touching(es: seq<Enemy>, player: Circle, h: Helpers): nat
    decreases |es|
  {
    if es == [] then 0
    else
      var m := |es| - 1;
      Touching(es[..m], player, h) + (if h.isColliding(player, es[m].Body()) then 1 else 0)
  }

  /** What starts and ends a game: the in-memory status, the status
      persisted in session storage, the animation-frame handle, the live
      interval handles and the cancelled frames. */
  datatype LifeState = LifeState(status: GameStatus, persisted: Option<string>, frame: Option<nat>,
                                 intervals: set<nat>, cancelled: set<nat>)

  /** The handle an optional interval id names, as a set. */
  function Handles(id: Option<nat>): set<nat>
  {
    if id.Some? then {id.value} else {}
  }

  /** What `gameOver` leaves of the lifecycle `l`, with `intervalId` the
      enemy-spawn interval: status 'down' in memory and persisted, a live
      frame (a truthy handle) cancelled and dropped while any other handle is
      kept, and the spawn interval cleared. */
  function Ended(l: LifeState, intervalId: Option<nat>): LifeState
  {
    var live := l.frame.Some? && l.frame.value != 0;
    LifeState(Down, Some("down"), if live then None else l.frame,
              l.intervals - Handles(intervalId),
              l.cancelled + if live then {l.frame.value} else {})
  }

  /** The lifecycle `l` after `n` calls of `gameOver` in one frame, one per
      enemy touching the player: unchanged when there are none, `Ended`
      otherwise. */
  function AfterGameOvers(l: LifeState, n: nat, intervalId: Option<nat>): LifeState
  {
    if n == 0 then l else Ended(l, intervalId)
  }

  /** One more `gameOver` after `n` of them. */
  lemma AfterGameOversStep(l: LifeState, n: nat, intervalId: Option<nat>)
    ensures AfterGameOvers(l, n + 1, intervalId) == Ended(AfterGameOvers(l, n, intervalId), intervalId)
  {
    EndedTwice(l, intervalId);
  }

  /** A second `gameOver` in the same frame (a second enemy touching the
      player) changes the lifecycle no further: only the death count grows
      again. */
  lemma EndedTwice(l: LifeState, intervalId: Option<nat>)
    ensures Ended(Ended(l, intervalId), intervalId) == Ended(l, intervalId)
    ensures Ended(l, intervalId).status == Down && Ended(l, intervalId).persisted == Some("down")
    ensures !(Ended(l, intervalId).frame.Some? && Ended(l, intervalId).frame.value != 0)
  {
  }

  /** At most every enemy touches the player, and the count is zero exactly
      when no enemy touches the player. */
  lemma {:induction false} TouchingCounts(es: seq<Enemy>, player: Circle, h: Helpers)
    ensures Touching(es, player, h) <= |es|
    ensures Touching(es, player, h) == 0 <==> forall k :: 0 <= k < |es| ==> !h.isColliding(player, es[k].Body())
    decreases |es|
  {
    if es != [] {
      var m := |es| - 1;
      TouchingCounts(es[..m], player, h);
      assert forall k :: 0 <= k < m ==> es[..m][k] == es[k];
    }
  }

  class Game {
    var width: nat
    var height: nat
    var projectiles: seq<Mover>
    var particles: seq<Particle>
    var enemies: seq<Enemy>
    var powerUps: seq<PowerUp>
    var animationId: Option<nat>
    var gameStatus: GameStatus
    var frames: nat
    var mouse: Vec
    var spawnPowerUpsId: Option<nat>
    /** `state.player`, `state.stats` and `state.intervalId` */
    var player: Player
    var stats: Stats
    var intervalId: Option<nat>
    /** `PLAYER_UPGRADES` */
    var upgrades: seq<Upgrade>
    /** session storage under "gameStatus" */
    var sessionStatus: Option<string>
    /** the interval and animation-frame handles that are still live */
    var liveIntervals: set<nat>
    var cancelledFrames: set<nat>
    /** `setTimeout(…, 0)` callbacks not yet run */
    var pending: seq<Callback>
    /** power-up expiry timers (5000 ms) not yet fired */
    var expiryTimers: nat

    /** The state the deferred callbacks read and write. */
    function Board(): Board
      reads this`projectiles, this`particles, this`enemies, this`stats, this`player, player`damage
    {
      GameRules.Board(projectiles, particles, enemies, stats, player.damage)
    }

    /** The player's circle, as the collision helper sees it. */
    function PlayerBody(): Circle
      reads this`player, player`x, player`y, player`radius
    {
      Circle(player.x, player.y, player.radius)
    }

    /** What ends or starts a game: the status, its persisted copy, the
        frame handle, the live intervals and the cancelled frames. */
    function Lifecycle(): LifeState
      reads this`gameStatus, this`sessionStatus, this`animationId, this`liveIntervals, this`cancelledFrames
    {
      LifeState(gameStatus, sessionStatus, animationId, liveIntervals, cancelledFrames)
    }

    /** What the machine gun fires on this frame: one yellow projectile of
        radius 5 at the player while it holds the gun on an even frame,
        nothing otherwise. */
    function Volley(gunVelocity: Vec): (shots: seq<Mover>)
      reads this`frames, this`player, player`x, player`y, player`powerUp
      ensures |shots| <= 1
      ensures shots != [] <==> player.powerUp == MachineGun && frames % 2 == 0
    {
      if player.powerUp == MachineGun && frames % 2 == 0
      then [Mover(player.x, player.y, 5.0, Named("yellow"), gunVelocity)]
      else []
    }

    /** What one frame does to the player and the power-ups: the player
        moves by `Moved` and keeps its damage, health and radius; the
        power-ups become `PowerUpWalk` of the old ones, tested against the
        MOVED player; every pickup starts an expiry timer; the player holds
        the machine gun and is yellow exactly when there was a pickup, and
        otherwise keeps its power-up and colour. */
    twostate predicate PlayerFrame(h: Helpers)
      reads this`player, this`width, this`height, this`powerUps, this`expiryTimers, player
    {
      && player == old(player)
      && player.CurrentMotion() == Moved(old(player.CurrentMotion()), width, height)
      && player.damage == old(player.damage) && player.health == old(player.health)
      && player.radius == old(player.radius)
      && var walk := PowerUpWalk(old(powerUps), |old(powerUps)|, width, PlayerBody(), h);
      && powerUps == walk.0
      && expiryTimers == old(expiryTimers) + walk.1
      && (walk.1 == 0 ==> player.powerUp == old(player.powerUp) && player.color == old(player.color))
      && (walk.1 > 0 ==> player.powerUp == MachineGun && player.color == Named("yellow"))
    }

    /** What one frame does to the board, given the frame's inputs: the
        frame count grows by one; every particle takes its step; every enemy
        moves; the projectiles are the old ones followed by this frame's
        `Volley`, each moved once; the queue grows by the particle drops and
        then the hits; and the deaths grow by the number of enemies that
        touch the player. */
    twostate predicate BoardFrame(h: Helpers, inp: FrameInputs)
      reads this`frames, this`particles, this`enemies, this`projectiles, this`pending, this`stats
      reads this`player, this`width, this`height, player
    {
      && frames == old(frames) + 1
      && |particles| == |old(particles)|
      && (forall k :: 0 <= k < |particles| ==> particles[k] == StepParticle(old(particles)[k], inp.alphaDraws(k)))
      && |enemies| == |old(enemies)|
      && (forall k :: 0 <= k < |enemies| ==> enemies[k] == UpdateEnemy(old(enemies)[k]))
      && |projectiles| == |old(projectiles)| + |Volley(inp.gunVelocity)|
      && (forall k :: 0 <= k < |projectiles| ==>
            projectiles[k] == Move((old(projectiles) + Volley(inp.gunVelocity))[k]))
      && pending == old(pending) + ParticleDrops(old(particles), inp.alphaDraws, width, height)
                    + HitQueue(enemies, projectiles, player.damage, h)
      && stats == old(stats).(deaths := old(stats).deaths + Touching(enemies, PlayerBody(), h))
    }

    /** What `resume` leaves, apart from the in-memory status: one frame
        (`PlayerFrame` and `BoardFrame`) and a new enemy-spawn interval,
        stored and live beside the old one. Without a touch the frame is
        requested and nothing is cancelled; with one, `gameOver` has
        persisted 'down', cancelled the new frame (when its handle is
        truthy) and cleared the interval that was current before the new
        one started. */
    twostate predicate Resumed(h: Helpers, inp: FrameInputs, enemyHandle: nat)
      reads this`frames, this`particles, this`enemies, this`projectiles, this`pending, this`stats
      reads this`player, this`width, this`height, player, this`powerUps, this`expiryTimers
      reads this`intervalId, this`animationId, this`sessionStatus, this`cancelledFrames, this`liveIntervals
    {
      && PlayerFrame(h) && BoardFrame(h, inp)
      && intervalId == Some(enemyHandle)
      && (Touching(enemies, PlayerBody(), h) == 0 ==>
            && animationId == Some(inp.frameHandle) && sessionStatus == old(sessionStatus)
            && cancelledFrames == old(cancelledFrames)
            && liveIntervals == old(liveIntervals) + {enemyHandle})
      && (Touching(enemies, PlayerBody(), h) > 0 ==>
            && sessionStatus == Some("down") && !FrameLive()
            && cancelledFrames == old(cancelledFrames) + (if inp.frameHandle != 0 then {inp.frameHandle} else {})
            && liveIntervals == old(liveIntervals) - Handles(old(intervalId)) + {enemyHandle})
    }

    /** What `restart` leaves: the game is up and persisted so; the stats
        are the reset ones; a frame is requested while the cancelled frames
        stay as they were, so the frame live before is never cancelled; the
        player and the power-ups take the frame (`PlayerFrame`: the power-ups
        are not cleared); the particles and enemies are empty and the only
        projectiles are this frame's `Volley`, moved once; nothing is queued;
        and both intervals are started beside any older ones. */
    twostate predicate Restarted(resetStats: Stats, h: Helpers, inp: FrameInputs, enemyHandle: nat,
                                 powerUpHandle: nat)
      reads this, player
    {
      && gameStatus == Up && sessionStatus == Some("up")
      && animationId == Some(inp.frameHandle) && cancelledFrames == old(cancelledFrames)
      && stats == resetStats
      && frames == old(frames) + 1
      && PlayerFrame(h)
      && particles == [] && enemies == []
      && |projectiles| == |Volley(inp.gunVelocity)|
      && (forall k :: 0 <= k < |projectiles| ==> projectiles[k] == Move(Volley(inp.gunVelocity)[k]))
      && pending == old(pending)
      && intervalId == Some(enemyHandle) && spawnPowerUpsId == Some(powerUpHandle)
      && liveIntervals == old(liveIntervals) + {enemyHandle, powerUpHandle}
    }

    /** The animation frame is live: `if (this.animationId)` holds. */
    predicate FrameLive()
      reads this`animationId
    {
      animationId.Some? && animationId.value != 0
    }

    /** `new Game(canvas)`: a player at the centre, empty arrays, no frame,
        status 'up' persisted, frame count zero, all stats zero. */
    constructor (width: nat, height: nat, upgrades: seq<Upgrade>)
      ensures this.width == width && this.height == height && this.upgrades == upgrades
      ensures projectiles == [] && particles == [] && enemies == [] && powerUps == []
      ensures animationId == None && gameStatus == Up && sessionStatus == Some("up")
      ensures frames == 0 && stats == DefaultStats && intervalId == None
      ensures pending == [] && liveIntervals == {} && cancelledFrames == {}
      ensures expiryTimers == 0 && mouse == Vec(0.0, 0.0) && spawnPowerUpsId == None
      ensures fresh(player) && player.x == width as real / 2.0 && player.y == height as real / 2.0
      ensures player.radius == 20.0 && player.color == Named("aqua") && player.damage == 1
    {
      this.width := width;
      this.height := height;
      this.upgrades := upgrades;
      var p := CreatePlayer(height, width, None, None);
      player := p;
      animationId := None;
      projectiles := [];
      particles := [];
      enemies := [];
      gameStatus := Up;
      sessionStatus := Some(StatusName(Up));
      powerUps := [];
      frames := 0;
      mouse := Vec(0.0, 0.0);
      spawnPowerUpsId := None;
      stats := DefaultStats;
      intervalId := None;
      liveIntervals := {};
      cancelledFrames := {};
      pending := [];
      expiryTimers := 0;
    }

    /** `Game.createPlayer`: a player at the canvas centre; radius 20 and
        colour 'aqua' unless given; damage and health 1, at rest. */
    static method CreatePlayer(canvasHeight: nat, canvasWidth: nat, radius: Option<real>,
                               color: Option<Color>) returns (p: Player)
      ensures fresh(p)
      ensures p.x == canvasWidth as real / 2.0 && p.y == canvasHeight as real / 2.0
      ensures p.radius == (if radius.Some? then radius.value else 20.0)
      ensures p.color == (if color.Some? then color.value else Named("aqua"))
      ensures p.damage == 1 && p.health == 1 && p.vx == 0.0 && p.vy == 0.0
      ensures p.powerUp == NoPowerUp
    {
      var r := if radius.Some? then radius.value else 20.0;
      var c := if color.Some? then color.value else Named("aqua");
      p := new Player(canvasWidth as real / 2.0, canvasHeight as real / 2.0, r, c, None, None, None);
    }

    /** `Game.getGameStatus()`: reads the persisted status, strictly. */
    method GetStatus() returns (r: Result<GameStatus, string>)
      ensures r.Ok? <==> sessionStatus.Some? && sessionStatus.value in {"up", "down", "paused"}
      ensures r.Ok? ==> StatusName(r.value) == sessionStatus.value
    {
      r := GetGameStatus(sessionStatus);
    }

    /** `initialize`: the stats become whatever `initializeState` leaves
        (given here), the frame handle is dropped, the particle, projectile and
        enemy arrays are emptied, and status 'up' is set and persisted. The
        power-ups are left as they were. */
    method Initialize(resetStats: Stats)
      modifies this`stats, this`animationId, this`particles, this`projectiles, this`enemies
      modifies this`gameStatus, this`sessionStatus
      ensures stats == resetStats && animationId == None
      ensures particles == [] && projectiles == [] && enemies == []
      ensures gameStatus == Up && sessionStatus == Some("up")
    {
      stats := resetStats;
      animationId := None;
      particles := [];
      projectiles := [];
      enemies := [];
      gameStatus := Up;
      sessionStatus := Some(StatusName(Up));
    }

    /** `spawnEnemies`: start a new enemy-spawn interval and remember its
        handle; an interval started before is NOT cleared. */
    method SpawnEnemies(handle: nat)
      modifies this`intervalId, this`liveIntervals
      ensures intervalId == Some(handle) && liveIntervals == old(liveIntervals) + {handle}
    {
      intervalId := Some(handle);
      liveIntervals := liveIntervals + {handle};
    }

    /** One tick of the enemy-spawn interval: push a freshly spawned enemy. */
    method SpawnEnemyTick(d: EnemyDraw, h: Helpers)
      modifies this`enemies
      ensures enemies == old(enemies) + [SpawnEnemy(width, height, d, h.getVelocity)]
    {
      enemies := enemies + [SpawnEnemy(width, height, d, h.getVelocity)];
    }

    /** `spawnPowerUps`: start the power-up interval. */
    method SpawnPowerUps(handle: nat)
      modifies this`spawnPowerUpsId, this`liveIntervals
      ensures spawnPowerUpsId == Some(handle) && liveIntervals == old(liveIntervals) + {handle}
    {
      spawnPowerUpsId := Some(handle);
      liveIntervals := liveIntervals + {handle};
    }

    /** One tick of the power-up interval: a power-up enters at x = -30, at a
        random height, drifting right at a speed in [2, 3). */
    method SpawnPowerUpTick(y: Unit, speed: Unit, imageHeight: real)
      modifies this`powerUps
      ensures |powerUps| == |old(powerUps)| + 1 && powerUps[..|old(powerUps)|] == old(powerUps)
      ensures var u := powerUps[|powerUps| - 1];
        u.x == -30.0 && 0.0 <= u.y <= height as real
        && 2.0 <= u.velocity.x < 3.0 && u.velocity.y == 0.0
    {
      var u := PowerUp(-30.0, Scale(y, height as real), Vec(speed + 2.0, 0.0), imageHeight);
      powerUps := powerUps + [u];
    }

    /** `shootProjectile(origin, client)`: one white projectile of radius 4
        at the origin, aimed at the client point at speed 8, is appended, and
        the projectile count grows by one. Nothing else changes. */
    method ShootProjectile(origin: Vec, client: Vec, h: Helpers)
      modifies this`projectiles, this`stats
      ensures |projectiles| == |old(projectiles)| + 1
      ensures projectiles[..|old(projectiles)|] == old(projectiles)
      ensures projectiles[|projectiles| - 1]
           == Mover(origin.x, origin.y, 4.0, Named("white"),
                    h.getVelocity(Aim(origin.x, origin.y, client.x, client.y, Some(8.0))))
      ensures stats == old(stats).(projectiles := old(stats).projectiles + 1)
    {
      var velocity := h.getVelocity(Aim(origin.x, origin.y, client.x, client.y, Some(8.0)));
      projectiles := projectiles + [Mover(origin.x, origin.y, 4.0, Named("white"), velocity)];
      stats := CountProjectile(stats);
    }

    /** `stop`: a live frame is cancelled and the handle dropped; with no
        live frame nothing happens, so stopping twice is stopping once. */
    method Stop()
      modifies this`animationId, this`cancelledFrames
      ensures !FrameLive()
      ensures old(FrameLive()) ==>
                animationId == None && cancelledFrames == old(cancelledFrames) + {old(animationId).value}
      ensures !old(FrameLive()) ==>
                animationId == old(animationId) && cancelledFrames == old(cancelledFrames)
    {
      if animationId.Some? && animationId.value != 0 {
        cancelledFrames := cancelledFrames + {animationId.value};
        animationId := None;
      }
    }

    /** `particleEffects(projectile, enemy)`: one particle per integer
        `0 <= i < 2 * enemy.radius`, each at the projectile's position in the
        enemy's colour. */
    method ParticleEffects(projectile: Mover, enemy: Enemy, draws: nat -> ParticleDraw)
      modifies this`particles
      ensures particles == old(particles) + Burst(projectile, enemy, draws)
    {
      var i: nat := 0;
      while (i as real) < enemy.radius * 2.0
        invariant i <= BurstSize(enemy.radius)
        invariant particles == old(particles) + Burst(projectile, enemy, draws)[..i]
        decreases BurstSize(enemy.radius) - i
      {
        BurstSizeCountsLoopIndices(enemy.radius, i);
        var spark := SpawnParticle(Vec(projectile.x, projectile.y), None, enemy.color, None, draws(i));
        assert Burst(projectile, enemy, draws)[..i + 1] == Burst(projectile, enemy, draws)[..i] + [spark];
        particles := particles + [spark];
        i := i + 1;
      }
      BurstSizeCountsLoopIndices(enemy.radius, i);
      assert Burst(projectile, enemy, draws)[..i] == Burst(projectile, enemy, draws);
    }

    /** `gameOver`: the death count grows by one, the frame loop is stopped,
        the enemy-spawn interval is cleared, and status 'down' is set and
        persisted. */
    method GameOver()
      modifies this`stats, this`animationId, this`cancelledFrames, this`liveIntervals
      modifies this`gameStatus, this`sessionStatus
      ensures stats == old(stats).(deaths := old(stats).deaths + 1)
      ensures !FrameLive()
      ensures old(FrameLive()) ==> cancelledFrames == old(cancelledFrames) + {old(animationId).value}
      ensures !old(FrameLive()) ==> animationId == old(animationId) && cancelledFrames == old(cancelledFrames)
      ensures liveIntervals == old(liveIntervals) - Handles(intervalId)
      ensures gameStatus == Down && sessionStatus == Some("down")
      ensures Lifecycle() == Ended(old(Lifecycle()), intervalId)
    {
      stats := CountDeath(stats);
      Stop();
      if intervalId.Some? {
        liveIntervals := liveIntervals - {intervalId.value};
      }
      gameStatus := Down;
      sessionStatus := Some(StatusName(Down));
    }

    /** The power-up expiry timer firing: the player loses the power-up and
        turns white. */
    method ExpirePowerUp()
      modifies this`expiryTimers, player`powerUp, player`color
      ensures expiryTimers == if old(expiryTimers) > 0 then old(expiryTimers) - 1 else 0
      ensures old(expiryTimers) > 0 ==> player.powerUp == NoPowerUp && player.color == Named("white")
      ensures old(expiryTimers) == 0 ==> player.powerUp == old(player.powerUp)
    {
      if expiryTimers > 0 {
        expiryTimers := expiryTimers - 1;
        player.powerUp := NoPowerUp;
        player.color := Named("white");
      }
    }

    /** The power-up pass of `animate`: a `forEach` whose callback splices
        the array it walks, so it visits the indices below the length the
        array had when it began and skips those past its current end. The
        array becomes what `PowerUpWalk` leaves; every pickup gives the player
        the machine gun, turns it yellow and starts one expiry timer. */
    method PowerUpPass(h: Helpers)
      modifies this`powerUps, this`expiryTimers, player`powerUp, player`color
      ensures Walked(|old(powerUps)|, h)
    {
      var len := |powerUps|;
      var i := 0;
      while i < len
        invariant 0 <= i <= len
        invariant Walked(i, h)
      {
        var picked := PowerUpAt(i, h);
        i := i + 1;
      }
    }

    /** The power-up state after the first `n` callbacks of the pass: the
        array and the pickups are those of `PowerUpWalk`; each pickup starts
        one expiry timer, and any pickup leaves the player with the machine
        gun, in yellow. */
    twostate predicate Walked(n: nat, h: Helpers)
      reads this`player, this`width, this`powerUps, this`expiryTimers, player
    {
      var walk := PowerUpWalk(old(powerUps), n, width, PlayerBody(), h);
      && powerUps == walk.0
      && expiryTimers == old(expiryTimers) + walk.1
      && (walk.1 == 0 ==> player.powerUp == old(player.powerUp) && player.color == old(player.color))
      && (walk.1 > 0 ==> player.powerUp == MachineGun && player.color == Named("yellow"))
    }

    /** One call of the power-up pass's callback, at index `i`: the array
        and the pickup are those of `PowerUpStep`; a pickup hands the player
        the machine gun, turns it yellow and starts an expiry timer. */
    method PowerUpAt(i: nat, h: Helpers) returns (picked: bool)
      modifies this`powerUps, this`expiryTimers, player`powerUp, player`color
      ensures (powerUps, picked) == PowerUpStep(old(powerUps), i, width, PlayerBody(), h)
      ensures expiryTimers == old(expiryTimers) + (if picked then 1 else 0)
      ensures picked ==> player.powerUp == MachineGun && player.color == Named("yellow")
      ensures !picked ==> player.powerUp == old(player.powerUp) && player.color == old(player.color)
    {
      picked := false;
      if i < |powerUps| {
        var u := powerUps[i];
        if u.x > width as real {
          powerUps := Splice(powerUps, i, []);
        } else {
          u := MovePowerUp(u);
          powerUps := powerUps[i := u];
        }
        var dist := h.hypot(player.x - u.x, player.y - u.y);
        if dist < u.imageHeight / 2.0 + player.radius {
          powerUps := Splice(powerUps, i, []);
          player.powerUp := MachineGun;
          player.color := Named("yellow");
          expiryTimers := expiryTimers + 1;
          picked := true;
        }
      }
    }

    /** The rapid-fire step of `animate`: while the player holds the machine
        gun, a yellow projectile of radius 5 leaves the player's position on
        every even frame, and none on odd frames. */
    method RapidFire(gunVelocity: Vec)
      modifies this`projectiles
      ensures player.powerUp == MachineGun && frames % 2 == 0 ==>
                projectiles == old(projectiles) + [Mover(player.x, player.y, 5.0, Named("yellow"), gunVelocity)]
      ensures !(player.powerUp == MachineGun && frames % 2 == 0) ==> projectiles == old(projectiles)
    {
      if player.powerUp == MachineGun {
        if frames % 2 == 0 {
          projectiles := projectiles + [Mover(player.x, player.y, 5.0, Named("yellow"), gunVelocity)];
        }
      }
    }

    /** One call of the particle pass's callback, on the particle at
        `index`: a faded particle (alpha <= 0) is scheduled for removal, a
        visible one is updated; then a particle out of bounds is scheduled
        for removal, possibly a second time. */
    method StepParticleAt(index: nat, rnd: Unit)
      requires index < |particles|
      modifies this`particles, this`pending
      ensures particles == old(particles)[index := StepParticle(old(particles)[index], rnd)]
      ensures pending == old(pending) + ParticleDropsAt(old(particles)[index], rnd, index, width, height)
    {
      var p := particles[index];
      if p.alpha <= 0.0 {
        pending := pending + [DropParticle(index)];
      } else {
        p := UpdateParticle(p, rnd);
        particles := particles[index := p];
      }
      if OutOfBounds(p.Body(), width, height) {
        pending := pending + [DropParticle(index)];
      }
    }

    /** The particle pass of `animate`: every particle takes one step, and
        the removals are scheduled in index order. */
    method ParticlePass(draws: nat -> Unit)
      modifies this`particles, this`pending
      ensures |particles| == |old(particles)|
      ensures forall k :: 0 <= k < |particles| ==> particles[k] == StepParticle(old(particles)[k], draws(k))
      ensures pending == old(pending) + ParticleDrops(old(particles), draws, width, height)
    {
      var index := 0;
      while index < |particles|
        invariant 0 <= index <= |particles| == |old(particles)|
        invariant forall k :: 0 <= k < index ==> particles[k] == StepParticle(old(particles)[k], draws(k))
        invariant forall k :: index <= k < |particles| ==> particles[k] == old(particles)[k]
        invariant pending == old(pending) + ParticleDrops(old(particles)[..index], draws, width, height)
      {
        ParticleDropsStep(old(particles), index, draws, width, height);
        StepParticleAt(index, draws(index));
        index := index + 1;
      }
      assert old(particles)[..index] == old(particles);
    }

    /** The projectile pass of `animate`: every projectile moves once. The
        later loop never culls projectiles: its bounds check is only ever
        called on particles. */
    method ProjectilePass()
      modifies this`projectiles
      ensures |projectiles| == |old(projectiles)|
      ensures forall k :: 0 <= k < |projectiles| ==> projectiles[k] == Move(old(projectiles)[k])
    {
      var k := 0;
      while k < |projectiles|
        invariant 0 <= k <= |projectiles| == |old(projectiles)|
        invariant forall m :: 0 <= m < k ==> projectiles[m] == Move(old(projectiles)[m])
        invariant forall m :: k <= m < |projectiles| ==> projectiles[m] == old(projectiles)[m]
      {
        projectiles := projectiles[k := Move(projectiles[k])];
        k := k + 1;
      }
    }

    /** The inner `forEach` of the enemy pass: one hit callback per
        projectile that collides with the enemy `e` at index `i`. */
    method ScheduleHits(i: nat, e: Enemy, h: Helpers)
      modifies this`pending
      ensures pending == old(pending) + Hits(e, i, projectiles, player.damage, h)
    {
      var j := 0;
      while j < |projectiles|
        invariant 0 <= j <= |projectiles|
        invariant pending == old(pending) + Hits(e, i, projectiles[..j], player.damage, h)
      {
        var p := projectiles[j];
        if h.isColliding(p.Body(), e.Body()) {
          pending := pending + [ResolveHit(i, e, j, p, e.health - player.damage)];
        }
        assert projectiles[..j + 1][..j] == projectiles[..j];
        j := j + 1;
      }
      assert projectiles[..j] == projectiles;
    }

    /** One turn of the enemy pass, on the enemy at index `i`: it moves; if it
        touches the player, `gameOver` runs; then every projectile touching
        it schedules a hit. */
    method StepEnemyAt(i: nat, h: Helpers, ghost start: LifeState, ghost before: nat) returns (ghost after: nat)
      requires i < |enemies|
      requires Lifecycle() == AfterGameOvers(start, before, intervalId)
      modifies this`enemies, this`pending, this`stats, this`animationId, this`cancelledFrames
      modifies this`liveIntervals, this`gameStatus, this`sessionStatus
      ensures enemies == old(enemies)[i := UpdateEnemy(old(enemies)[i])]
      ensures pending == old(pending) + Hits(enemies[i], i, projectiles, player.damage, h)
      ensures after == before + if h.isColliding(PlayerBody(), enemies[i].Body()) then 1 else 0
      ensures stats == old(stats).(deaths := old(stats).deaths + (after - before))
      ensures Lifecycle() == AfterGameOvers(start, after, intervalId)
    {
      after := before;
      var e := UpdateEnemy(enemies[i]);
      enemies := enemies[i := e];
      if h.isColliding(PlayerBody(), e.Body()) {
        AfterGameOversStep(start, before, intervalId);
        GameOver();
        after := before + 1;
      }
      ScheduleHits(i, e, h);
    }

    /** The enemy pass of `animate`: every enemy moves; each one touching the
        player calls `gameOver` (so the deaths grow by the number of touching
        enemies); every projectile touching an enemy schedules a hit. */
    method EnemyPass(h: Helpers)
      modifies this`enemies, this`pending, this`stats, this`animationId, this`cancelledFrames
      modifies this`liveIntervals, this`gameStatus, this`sessionStatus
      ensures |enemies| == |old(enemies)|
      ensures forall k :: 0 <= k < |enemies| ==> enemies[k] == UpdateEnemy(old(enemies)[k])
      ensures pending == old(pending) + HitQueue(enemies, projectiles, player.damage, h)
      ensures stats == old(stats).(deaths := old(stats).deaths + Touching(enemies, PlayerBody(), h))
      ensures Lifecycle() == AfterGameOvers(old(Lifecycle()), Touching(enemies, PlayerBody(), h), intervalId)
    {
      ghost var body, damage := PlayerBody(), player.damage;
      ghost var touched: nat := 0;
      var i := 0;
      while i < |enemies|
        invariant 0 <= i <= |enemies| == |old(enemies)|
        invariant forall k :: 0 <= k < i ==> enemies[k] == UpdateEnemy(old(enemies)[k])
        invariant forall k :: i <= k < |enemies| ==> enemies[k] == old(enemies)[k]
        invariant pending == old(pending) + HitQueue(enemies[..i], projectiles, damage, h)
        invariant touched == Touching(enemies[..i], body, h)
        invariant stats == old(stats).(deaths := old(stats).deaths + touched)
        invariant Lifecycle() == AfterGameOvers(old(Lifecycle()), touched, intervalId)
      {
        AdvanceEnemyPass(old(enemies), i, enemies, projectiles, damage, body, h);
        touched := StepEnemyAt(i, h, old(Lifecycle()), touched);
        i := i + 1;
      }
      assert enemies[..i] == enemies;
    }

    /** The first half of `animate`: request the next frame, count it,
        update the player and run the power-up pass against the moved player
        (`MovePlayer`; the count touches neither, so its place between the
        two does not matter), and fire the machine gun on an even frame (with
        the gun the pass may just have handed over). */
    method BeginFrame(h: Helpers, inp: FrameInputs)
      modifies player`x, player`y, player`vx, player`powerUp, player`color
      modifies this`animationId, this`frames, this`powerUps, this`expiryTimers, this`projectiles
      ensures Lifecycle() == old(Lifecycle()).(frame := Some(inp.frameHandle))
      ensures frames == old(frames) + 1
      ensures PlayerFrame(h)
      ensures projectiles == old(projectiles) + Volley(inp.gunVelocity)
    {
      animationId := Some(inp.frameHandle);
      frames := frames + 1;
      MovePlayer(h);
      RapidFire(inp.gunVelocity);
    }

    /** The player's part of a frame: `player.update()`, then the power-up
        pass against the moved player. */
    method MovePlayer(h: Helpers)
      modifies player`x, player`y, player`vx, player`powerUp, player`color
      modifies this`powerUps, this`expiryTimers
      ensures PlayerFrame(h)
    {
      player.Update(width, height);
      ghost var body := PlayerBody();
      PowerUpPass(h);
      assert PlayerBody() == body;
    }

    /** The second half of `animate`: the particle, projectile and enemy
        passes, in that order. */
    method RunPasses(h: Helpers, alphaDraws: nat -> Unit)
      modifies this`projectiles, this`particles, this`pending, this`enemies, this`stats
      modifies this`animationId, this`cancelledFrames, this`liveIntervals, this`gameStatus, this`sessionStatus
      ensures |particles| == |old(particles)|
      ensures forall k :: 0 <= k < |particles| ==> particles[k] == StepParticle(old(particles)[k], alphaDraws(k))
      ensures |projectiles| == |old(projectiles)|
      ensures forall k :: 0 <= k < |projectiles| ==> projectiles[k] == Move(old(projectiles)[k])
      ensures |enemies| == |old(enemies)|
      ensures forall k :: 0 <= k < |enemies| ==> enemies[k] == UpdateEnemy(old(enemies)[k])
      ensures pending == old(pending) + ParticleDrops(old(particles), alphaDraws, width, height)
                         + HitQueue(enemies, projectiles, player.damage, h)
      ensures stats == old(stats).(deaths := old(stats).deaths + Touching(enemies, PlayerBody(), h))
      ensures Lifecycle() == AfterGameOvers(old(Lifecycle()), Touching(enemies, PlayerBody(), h), intervalId)
    {
      ParticlePass(alphaDraws);
      ProjectilePass();
      EnemyPass(h);
    }

    /** One `animate` call: the two halves above. The machine-gun shot is
        appended before the projectile pass, so it moves on the frame it is
        fired. (The guard for a missing player is not needed: the game always
        holds one.) */
    method Animate(h: Helpers, inp: FrameInputs)
      modifies player`x, player`y, player`vx, player`powerUp, player`color
      modifies this`animationId, this`frames, this`powerUps, this`expiryTimers
      modifies this`projectiles, this`particles, this`pending, this`enemies, this`stats
      modifies this`cancelledFrames, this`liveIntervals, this`gameStatus, this`sessionStatus
      ensures PlayerFrame(h) && BoardFrame(h, inp)
      ensures Lifecycle() == AfterGameOvers(old(Lifecycle()).(frame := Some(inp.frameHandle)),
                                            Touching(enemies, PlayerBody(), h), intervalId)
    {
      BeginFrame(h, inp);
      RunPasses(h, inp.alphaDraws);
    }

    /** The `setTimeout(…, 0)` callbacks running after the pass, in the order
        they were scheduled; callback number n spawns its burst from
        `draws(n)`. */
    method RunPending(draws: nat -> nat -> ParticleDraw)
      modifies this`projectiles, this`particles, this`enemies, this`stats, this`pending, player`damage
      ensures Board() == RunAll(old(Board()), old(pending), upgrades, draws, 0)
      ensures pending == []
    {
      var n := 0;
      while pending != []
        invariant n + |pending| == |old(pending)|
        invariant RunAll(Board(), pending, upgrades, draws, n)
               == RunAll(old(Board()), old(pending), upgrades, draws, 0)
        decreases |pending|
      {
        var b := RunCallback(Board(), pending[0], upgrades, draws(n));
        projectiles, particles, enemies, stats := b.projectiles, b.particles, b.enemies, b.stats;
        player.damage := b.damage;
        pending := pending[1..];
        n := n + 1;
      }
    }

    /** `resume`: animate once more and start ANOTHER enemy-spawn interval;
        the one that ran before the pause is still live. The result is
        `Resumed`, and the in-memory status is 'down' exactly when an enemy
        touched the player during the frame. */
    method Resume(h: Helpers, inp: FrameInputs, enemyHandle: nat)
      modifies player`x, player`y, player`vx, player`powerUp, player`color
      modifies this`animationId, this`frames, this`powerUps, this`expiryTimers
      modifies this`projectiles, this`particles, this`pending, this`enemies, this`stats
      modifies this`cancelledFrames, this`liveIntervals, this`gameStatus, this`sessionStatus
      modifies this`intervalId
      ensures Resumed(h, inp, enemyHandle)
      ensures gameStatus == if Touching(enemies, PlayerBody(), h) == 0 then old(gameStatus) else Down
    {
      Animate(h, inp);
      SpawnEnemies(enemyHandle);
    }

    /** `restart`: initialize, animate once, and start the enemy and power-up
        intervals; the result is `Restarted`. `initialize` drops the frame
        handle without cancelling it, so the frame that was live before a
        restart is never cancelled: its chain goes on beside the new one. */
    method Restart(resetStats: Stats, h: Helpers, inp: FrameInputs, enemyHandle: nat, powerUpHandle: nat)
      modifies player`x, player`y, player`vx, player`powerUp, player`color
      modifies this`animationId, this`frames, this`powerUps, this`expiryTimers
      modifies this`projectiles, this`particles, this`pending, this`enemies, this`stats
      modifies this`cancelledFrames, this`liveIntervals, this`gameStatus, this`sessionStatus
      modifies this`intervalId, this`spawnPowerUpsId
      ensures Restarted(resetStats, h, inp, enemyHandle, powerUpHandle)
    {
      Initialize(resetStats);
      // `animate` then `spawnEnemies` is exactly `resume`
      Resume(h, inp, enemyHandle);
      assert Touching(enemies, PlayerBody(), h) == 0;
      assert ParticleDrops([], inp.alphaDraws, width, height) == [];
      assert HitQueue([], projectiles, player.damage, h) == [];
      SpawnPowerUps(powerUpHandle);
    }
  }
}

=== FILE: game_rules.dfy ===
/** What the deferred callbacks of the later game loop (src/ts/Game.ts) do
    when they finally run. Every `setTimeout(…, 0)` of `animate` is one
    `Callback` value holding what its closure captured; the callbacks run in
    the order they were scheduled, after the frame's pass, and each one
    splices by the index it captured, whatever has been removed before it. */
module GameRules {
  import opened Common
  import opened Players
  import opened Enemies
  import opened Rules

  datatype Callback =
    | DropParticle(index: nat)
    | DropProjectile(index: nat)
      /** The hit callback: it captured the enemy and projectile objects,
          their indices, and the enemy's health minus the player's damage. */
    | ResolveHit(enemyIndex: nat, enemy: Enemy, projectileIndex: nat, projectile: Mover,
                 updatedHealth: int)

  /** The state the callbacks read and write. */
  datatype Board = Board(
    projectiles: seq<Mover>, particles: seq<Particle>, enemies: seq<Enemy>,
    stats: Stats, damage: int)

  /** How many particles `particleEffects` pushes for an enemy of this
      radius: one per integer `i` with `0 <= i < radius * 2`. */
  function BurstSize(radius: real): nat
  {
    if radius <= 0.0 then 0 else -((-2.0 * radius).Floor)
  }

  /** The burst size counts exactly the loop indices of `particleEffects`. */
  lemma BurstSizeCountsLoopIndices(radius: real, i: nat)
    ensures i < BurstSize(radius) <==> (i as real) < 2.0 * radius
  {
    if radius > 0.0 {
      var c := (-2.0 * radius).Floor;
      assert c as real <= -2.0 * radius < c as real + 1.0;
      if i < -c {
        assert i + 1 <= -c;
        assert (i as real) + 1.0 <= -(c as real);
      }
    }
  }

  /** The particle `particleEffects` spawns at loop index `k`. */
  function Spark(projectile: Mover, enemy: Enemy, draws: nat -> ParticleDraw, k: nat): Particle
  {
    SpawnParticle(Vec(projectile.x, projectile.y), None, enemy.color, None, draws(k))
  }

  /** Every particle `particleEffects(projectile, enemy)` pushes, in order:
      each starts at the projectile's position with the enemy's colour. */
  function Burst(projectile: Mover, enemy: Enemy, draws: nat -> ParticleDraw): (ps: seq<Particle>)
    ensures |ps| == BurstSize(enemy.radius)
    ensures forall k :: 0 <= k < |ps| ==>
      ps[k].x == projectile.x && ps[k].y == projectile.y && ps[k].color == enemy.color
      && ps[k].alpha == 1.0
  {
    seq(BurstSize(enemy.radius), k requires 0 <= k => Spark(projectile, enemy, draws, k))
  }

  /** One callback run against the board. A hit that leaves health replaces
      the enemy at its captured index by a copy with the new health; a kill
      adds the kill score, counts the elimination, recomputes the damage,
      spawns the burst and removes the enemy; either way the projectile at
      its captured index is removed. When the upgrade lookup finds no entry
      the kill callback throws right after counting the elimination, so the
      later steps do not happen. */
  function RunCallback(b: Board, c: Callback, upgrades: seq<Upgrade>,
                       draws: nat -> ParticleDraw): Board
  {
    match c
    case DropParticle(i) => b.(particles := Splice(b.particles, i, []))
    case DropProjectile(i) => b.(projectiles := Splice(b.projectiles, i, []))
    case ResolveHit(i, e, j, p, health) =>
      if health > 0 then
        b.(enemies := Splice(b.enemies, i, [e.(health := health)]),
           projectiles := Splice(b.projectiles, j, []))
      else
        var stats := CountElimination(AddScore(b.stats, KillScore(e.radius)));
        match UpgradeAttack(upgrades, stats.score)
        case None => b.(stats := stats)
        case Some(attack) =>
          Board(Splice(b.projectiles, j, []), b.particles + Burst(p, e, draws),
                Splice(b.enemies, i, []), stats, attack)
  }

  /** The queue run front to back; callback number `n` draws its burst from
      `draws(n)`. */
  function RunAll(b: Board, cs: seq<Callback>, upgrades: seq<Upgrade>,
                  draws: nat -> nat -> ParticleDraw, n: nat): Board
    decreases |cs|
  {
    if cs == [] then b
    else RunAll(RunCallback(b, cs[0], upgrades, draws(n)), cs[1..], upgrades, draws, n + 1)
  }

  /** A hit the enemy survives: the enemy at the captured index becomes the
      captured enemy with the new health, no other enemy changes, the
      projectile at its index is removed, and score, counters, particles and
      damage stay as they were. */
  lemma SurvivedHit(b: Board, i: nat, e: Enemy, j: nat, p: Mover, health: int,
                    upgrades: seq<Upgrade>, draws: nat -> ParticleDraw)
    requires health > 0 && i < |b.enemies| && j < |b.projectiles|
    ensures var r := RunCallback(b, ResolveHit(i, e, j, p, health), upgrades, draws);
      && |r.enemies| == |b.enemies|
      && r.enemies[i] == Enemy(e.x, e.y, health, e.radius, e.color, e.velocity)
      && (forall k :: 0 <= k < |b.enemies| && k != i ==> r.enemies[k] == b.enemies[k])
      && r.projectiles == b.projectiles[..j] + b.projectiles[j + 1..]
      && r.stats == b.stats && r.particles == b.particles && r.damage == b.damage
  {
  }

  /** A kill: the score grows by the kill score of the captured radius, the
      elimination count by one, the damage becomes the upgrade attack of the
      new score, the burst is appended, and the enemy and the projectile at
      their captured indices are removed. */
  lemma KillingHit(b: Board, i: nat, e: Enemy, j: nat, p: Mover, health: int,
                   upgrades: seq<Upgrade>, draws: nat -> ParticleDraw)
    requires health <= 0 && i < |b.enemies| && j < |b.projectiles|
    requires UpgradeAttack(upgrades, b.stats.score + KillScore(e.radius)).Some?
    ensures var r := RunCallback(b, ResolveHit(i, e, j, p, health), upgrades, draws);
      && r.stats.score == b.stats.score + KillScore(e.radius)
      && r.stats.eliminations == b.stats.eliminations + 1
      && r.stats.projectiles == b.stats.projectiles && r.stats.deaths == b.stats.deaths
      && r.damage == UpgradeAttack(upgrades, r.stats.score).value
      && r.particles == b.particles + Burst(p, e, draws)
      && r.enemies == b.enemies[..i] + b.enemies[i + 1..]
      && r.projectiles == b.projectiles[..j] + b.projectiles[j + 1..]
  {
  }

  /** A hit the enemy survives whose captured enemy index is no longer in
      the array (earlier callbacks removed enemies): `splice` past the end
      appends, so the damaged copy is ADDED to the enemies; a projectile
      index past the end removes no projectile. */
  lemma SurvivedHitPastEnd(b: Board, i: nat, e: Enemy, j: nat, p: Mover, health: int,
                           upgrades: seq<Upgrade>, draws: nat -> ParticleDraw)
    requires health > 0 && i >= |b.enemies|
    ensures var r := RunCallback(b, ResolveHit(i, e, j, p, health), upgrades, draws);
      && r.enemies == b.enemies + [Enemy(e.x, e.y, health, e.radius, e.color, e.velocity)]
      && (j >= |b.projectiles| ==> r.projectiles == b.projectiles)
      && r.stats == b.stats && r.particles == b.particles && r.damage == b.damage
  {
  }

  /** A kill whose upgrade lookup finds no entry: the callback throws after
      the score and the elimination are counted, so nothing but the stats
      changes; the enemy and the projectile stay. */
  lemma KillWithoutUpgrade(b: Board, i: nat, e: Enemy, j: nat, p: Mover, health: int,
                           upgrades: seq<Upgrade>, draws: nat -> ParticleDraw)
    requires health <= 0
    requires forall k :: 0 <= k < |upgrades| ==> upgrades[k].scoreRequired > b.stats.score + KillScore(e.radius)
    ensures var r := RunCallback(b, ResolveHit(i, e, j, p, health), upgrades, draws);
      && r == b.(stats := b.stats.(score := b.stats.score + KillScore(e.radius),
                                   eliminations := b.stats.eliminations + 1))
  {
    UpgradeAttackIsLastReached(upgrades, b.stats.score + KillScore(e.radius));
  }

  /** A kill and a surviving hit scheduled in the same frame, on enemies 0
      and 1 with projectiles 0 and 1: the kill removes enemy 0 and
      projectile 0, so the hit's captured indices now point one past the
      survivors. Enemy 1 then appears twice (its old self and the damaged
      copy appended at the end), and the projectile that hit it stays. */
  lemma KillThenHitDuplicates(b: Board, e0: Enemy, e1: Enemy, p: Mover, q: Mover, dead: int, health: int,
                              upgrades: seq<Upgrade>, draws: nat -> nat -> ParticleDraw)
    requires b.enemies == [e0, e1] && b.projectiles == [p, q]
    requires dead <= 0 && health > 0
    requires UpgradeAttack(upgrades, b.stats.score + KillScore(e0.radius)).Some?
    ensures var cs := [ResolveHit(0, e0, 0, p, dead), ResolveHit(1, e1, 1, q, health)];
      var r := RunAll(b, cs, upgrades, draws, 0);
      && r.enemies == [e1, e1.(health := health)]
      && r.projectiles == [q]
  {
    var cs := [ResolveHit(0, e0, 0, p, dead), ResolveHit(1, e1, 1, q, health)];
    var b1 := RunCallback(b, cs[0], upgrades, draws(0));
    assert b1.enemies == [e1] && b1.projectiles == [q];
    var b2 := RunCallback(b1, cs[1], upgrades, draws(1));
    assert b2.enemies == [e1, e1.(health := health)] && b2.projectiles == [q];
    assert cs[1..][0] == cs[1] && cs[1..][1..] == [];
    assert RunAll(b1, cs[1..], upgrades, draws, 1) == RunAll(b2, [], upgrades, draws, 2) == b2;
    assert RunAll(b, cs, upgrades, draws, 0) == RunAll(b1, cs[1..], upgrades, draws, 1);
  }

  /** Two projectiles hitting the same enemy in one frame schedule two hit
      callbacks that both captured the same health: when the enemy survives,
      running both leaves its health lowered by ONE damage, not two, and
      removes two projectiles. */
  lemma DoubleHitInOneFrameCountsOnce(b: Board, i: nat, e: Enemy, p: Mover, q: Mover,
                                      damage: int, upgrades: seq<Upgrade>,
                                      draws: nat -> nat -> ParticleDraw)
    requires i < |b.enemies| && 2 <= |b.projectiles|
    requires e.health - damage > 0
    ensures var cs := [ResolveHit(i, e, 0, p, e.health - damage), ResolveHit(i, e, 1, q, e.health - damage)];
      var r := RunAll(b, cs, upgrades, draws, 0);
      && |r.enemies| == |b.enemies|
      && r.enemies[i].health == e.health - damage
      && |r.projectiles| == |b.projectiles| - 1 - (if 2 < |b.projectiles| then 1 else 0)
  {
    var cs := [ResolveHit(i, e, 0, p, e.health - damage), ResolveHit(i, e, 1, q, e.health - damage)];
    var b1 := RunCallback(b, cs[0], upgrades, draws(0));
    SurvivedHit(b, i, e, 0, p, e.health - damage, upgrades, draws(0));
    var b2 := RunCallback(b1, cs[1], upgrades, draws(1));
    assert RunAll(b, cs, upgrades, draws, 0) == RunAll(b1, cs[1..], upgrades, draws, 1);
    assert cs[1..][1..] == [];
    assert RunAll(b1, cs[1..], upgrades, draws, 1) == b2;
  }

  /** Deferred removals by captured index shift what later removals hit:
      when the particles at indices 0 and 1 of [a, b, c] are both scheduled
      for removal, running the two splices removes a and c, and b survives. */
  lemma AscendingDropsSkipNeighbour(a: Particle, b: Particle, c: Particle, board: Board,
                                    upgrades: seq<Upgrade>, draws: nat -> nat -> ParticleDraw)
    requires board.particles == [a, b, c]
    ensures RunAll(board, [DropParticle(0), DropParticle(1)], upgrades, draws, 0).particles == [b]
  {
    var cs := [DropParticle(0), DropParticle(1)];
    var b1 := RunCallback(board, cs[0], upgrades, draws(0));
    assert b1.particles == [b, c];
    var b2 := RunCallback(b1, cs[1], upgrades, draws(1));
    assert b2.particles == [b];
    assert cs[1..][1..] == [];
  }
}

=== FILE: players.dfy ===
/** The player and the particles of src/entities/Player.ts.

    The player is one object that the game loop and the key handlers both
    change in place, so it is a class. Particles live in the game's particle
    array and are only ever changed one at a time through `update`, so each
    particle is a value and an update replaces it. */
module Players {
  import opened Common

  /** The power-up the player holds (`player.powerUp`). */
  datatype PowerUpKind = NoPowerUp | MachineGun

  /** The part of the player that `update` reads and writes. */
  datatype Motion = Motion(x: real, y: real, radius: real, vx: real, vy: real)

  /** True when the player's circle does not cross the right or the bottom
      edge of a canvas of the given size (the only edges `update` guards). */
  predicate WithinFarEdges(m: Motion, width: nat, height: nat)
  {
    m.x + m.radius <= width as real - 1.0 && m.y + m.radius <= height as real - 1.0
  }

  /** One `Player.update`: horizontal motion is applied only when the circle
      stays one pixel inside the right edge, and otherwise the horizontal
      velocity is zeroed; vertical motion is applied only when the circle
      stays one pixel inside the bottom edge, and the vertical velocity is
      never touched. There is no guard on the left or the top edge. */
  function Moved(m: Motion, width: nat, height: nat): (r: Motion)
    ensures r.radius == m.radius && r.vy == m.vy
    // horizontal: move, or stay and zero the horizontal velocity
    ensures m.x + m.radius + m.vx <= width as real - 1.0 ==> r.x == m.x + m.vx && r.vx == m.vx
    ensures m.x + m.radius + m.vx > width as real - 1.0 ==> r.x == m.x && r.vx == 0.0
    // vertical: move, or stay; the vertical velocity is kept either way
    ensures m.y + m.radius + m.vy <= height as real - 1.0 ==> r.y == m.y + m.vy
    ensures m.y + m.radius + m.vy > height as real - 1.0 ==> r.y == m.y
    // a move is only ever taken when it keeps the circle inside the far edges
    ensures r.x != m.x ==> r.x + r.radius <= width as real - 1.0
    ensures r.y != m.y ==> r.y + r.radius <= height as real - 1.0
    // the far-edge bound is an invariant of update
    ensures WithinFarEdges(m, width, height) ==> WithinFarEdges(r, width, height)
    // a player at rest stays where it is
    ensures m.vx == 0.0 && m.vy == 0.0 ==> r.x == m.x && r.y == m.y
  {
    var (x, vx) :=
      if m.x + m.radius + m.vx <= width as real - 1.0 then (m.x + m.vx, m.vx) else (m.x, 0.0);
    var y := if m.y + m.radius + m.vy <= height as real - 1.0 then m.y + m.vy else m.y;
    Motion(x, y, m.radius, vx, m.vy)
  }

  /** Hitting the right edge zeroes the horizontal velocity in the same tick
      and leaves x where it was, while hitting the bottom edge leaves the
      vertical velocity as it was: the two axes are treated differently. */
  lemma EdgeAsymmetry(m: Motion, width: nat, height: nat)
    requires m.x + m.radius + m.vx > width as real - 1.0
    requires m.y + m.radius + m.vy > height as real - 1.0
    ensures Moved(m, width, height).vx == 0.0 && Moved(m, width, height).x == m.x
    ensures Moved(m, width, height).vy == m.vy && Moved(m, width, height).y == m.y
  {
  }

  class Player {
    var x: real
    var y: real
    var radius: real
    var color: Color
    var vx: real
    var vy: real
    var damage: int
    var health: int
    var powerUp: PowerUpKind

    /** The motion part of the player, as `update` sees it. */
    function CurrentMotion(): Motion
      reads this
    {
      Motion(x, y, radius, vx, vy)
    }

    /** `new Player({x, y, damage, health, radius, color, velocity})`: the
        omitted damage and health default to 1 and the omitted velocity to
        (0, 0). */
    constructor (x: real, y: real, radius: real, color: Color,
                 damage: Option<int>, health: Option<int>, velocity: Option<Vec>)
      ensures this.x == x && this.y == y && this.radius == radius && this.color == color
      ensures this.damage == (if damage.Some? then damage.value else 1)
      ensures this.health == (if health.Some? then health.value else 1)
      ensures velocity.None? ==> vx == 0.0 && vy == 0.0
      ensures velocity.Some? ==> vx == velocity.value.x && vy == velocity.value.y
      ensures powerUp == NoPowerUp
    {
      this.x := x;
      this.y := y;
      this.radius := radius;
      this.color := color;
      this.damage := if damage.Some? then damage.value else 1;
      this.health := if health.Some? then health.value else 1;
      var v := if velocity.Some? then velocity.value else Vec(0.0, 0.0);
      vx := v.x;
      vy := v.y;
      powerUp := NoPowerUp;
    }

    /** `Player.update(context, canvas)`, drawing left out. */
    method Update(width: nat, height: nat)
      modifies this`x, this`y, this`vx
      ensures CurrentMotion() == Moved(old(CurrentMotion()), width, height)
      ensures old(WithinFarEdges(CurrentMotion(), width, height)) ==> WithinFarEdges(CurrentMotion(), width, height)
    {
      if x + radius + vx <= width as real - 1.0 {
        x := x + vx;
      } else {
        vx := 0.0;
      }
      if y + radius + vy <= height as real - 1.0 {
        y := y + vy;
      }
    }
  }

  /** The fixed friction of every particle. */
  const Friction: real := 0.99

  datatype Particle = Particle(
    x: real, y: real, radius: real, color: Color,
    vx: real, vy: real, alpha: real, friction: real)
  {
    function Body(): Circle { Circle(x, y, radius) }
  }

  /** `new Particle(x, y, radius, color, velocity)`. */
  function NewParticle(x: real, y: real, radius: real, color: Color, velocity: Vec): (p: Particle)
    ensures p.Body() == Circle(x, y, radius) && p.color == color
    ensures p.vx == velocity.x && p.vy == velocity.y
    ensures p.alpha == 1.0 && p.friction == Friction
  {
    Particle(x, y, radius, color, velocity.x, velocity.y, 1.0, Friction)
  }

  /** The five `Math.random()` values `Particle.spawn` may draw, in the order
      it draws them: two for the x velocity, two for the y velocity, one for
      the radius. */
  datatype ParticleDraw = ParticleDraw(xSign: Unit, xSize: Unit, ySign: Unit, ySize: Unit, size: Unit)

  /** `(Math.random() - 0.5) * (Math.random() * 8)` */
  function Jitter(a: Unit, b: Unit): (v: real)
    ensures -4.0 < v < 4.0
  {
    var s := a - 0.5;
    var t := b * 8.0;
    assert 0.0 <= t < 8.0;
    if s >= 0.0 then
      assert s * t <= s * 8.0 < 4.0;
      s * t
    else
      assert -s * t <= -s * 8.0 <= 4.0;
      assert s * t >= s * 8.0;
      assert s * t > -4.0 by {
        if t == 0.0 { assert s * t == 0.0; } else { assert -s * t < 0.5 * 8.0; }
      }
      s * t
  }

  /** `Particle.spawn({projectileCoords, radius, color, velocity})`: the
      particle starts at the projectile's position; an omitted radius is drawn
      from [0, 5) and an omitted velocity from (-4, 4) on each axis. */
  function SpawnParticle(at: Vec, radius: Option<real>, color: Color, velocity: Option<Vec>,
                         d: ParticleDraw): (p: Particle)
    ensures p.x == at.x && p.y == at.y && p.color == color
    ensures p.alpha == 1.0 && p.friction == Friction
    ensures radius.Some? ==> p.radius == radius.value
    ensures radius.None? ==> 0.0 <= p.radius < 5.0
    ensures velocity.Some? ==> p.vx == velocity.value.x && p.vy == velocity.value.y
    ensures velocity.None? ==> -4.0 < p.vx < 4.0 && -4.0 < p.vy < 4.0
  {
    var v := if velocity.Some? then velocity.value else Vec(Jitter(d.xSign, d.xSize), Jitter(d.ySign, d.ySize));
    var r := if radius.Some? then radius.value else d.size * 5.0;
    NewParticle(at.x, at.y, r, color, v)
  }

  /** `Particle.update(context)`, drawing left out: the velocity is damped by
      the friction first, the damped velocity is added to the position, and
      alpha drops by `0.02 * rnd`. */
  function UpdateParticle(p: Particle, rnd: Unit): (q: Particle)
    ensures q.vx == p.vx * p.friction && q.vy == p.vy * p.friction
    ensures q.x == p.x + q.vx && q.y == p.y + q.vy
    // alpha never increases, and drops by less than 0.02 in one tick
    ensures p.alpha - 0.02 < q.alpha <= p.alpha
    ensures q.radius == p.radius && q.color == p.color && q.friction == p.friction
    // a particle at rest stays where it is
    ensures p.vx == 0.0 && p.vy == 0.0 ==> q.x == p.x && q.y == p.y
  {
    var vx := p.vx * p.friction;
    var vy := p.vy * p.friction;
    p.(vx := vx, vy := vy, x := p.x + vx, y := p.y + vy, alpha := p.alpha - 0.02 * rnd)
  }

  /** With the fixed friction, a particle's speed on each axis shrinks every
      tick unless it is already zero. */
  lemma FrictionDamps(p: Particle, rnd: Unit)
    requires p.friction == Friction
    ensures var q := UpdateParticle(p, rnd);
      (p.vx > 0.0 ==> 0.0 < q.vx < p.vx) && (p.vx < 0.0 ==> p.vx < q.vx < 0.0) &&
      (p.vy > 0.0 ==> 0.0 < q.vy < p.vy) && (p.vy < 0.0 ==> p.vy < q.vy < 0.0)
  {
  }

  /** After `n` updates with draws in [0, 1), alpha has dropped by less than
      `0.02 * n`, and never risen: a particle needs more than 50 ticks to fade
      from 1 to 0. */
  function UpdateTimes(p: Particle, rnds: seq<Unit>): (q: Particle)
    ensures q.alpha <= p.alpha
    ensures |rnds| > 0 ==> q.alpha > p.alpha - 0.02 * |rnds| as real
    ensures q.radius == p.radius && q.color == p.color && q.friction == p.friction
    decreases |rnds|
  {
    if rnds == [] then p else UpdateTimes(UpdateParticle(p, rnds[0]), rnds[1..])
  }
}

=== FILE: rules.dfy ===
/** The pure rules of the later game (src/ts/Game.ts): the persisted game
    status and its strict parsing, the statistics record, the score awarded
    for a kill, and the damage-upgrade table lookup. */
module Rules {
  import opened Common

  /** The three values of `GameStatusKeys`. */
  datatype GameStatus = Up | Down | Paused

  /** The string under which a status is persisted. */
  function StatusName(s: GameStatus): (name: string)
    ensures name in {"up", "down", "paused"}
  {
    match s
    case Up => "up"
    case Down => "down"
    case Paused => "paused"
  }

  /** `Game.getGameStatus()` applied to what session storage holds under
      "gameStatus" (`None` when nothing is stored): it returns the status only
      when the stored string is one of the three names, and throws otherwise,
      including for a missing or empty value. */
  function GetGameStatus(stored: Option<string>): (r: Result<GameStatus, string>)
    ensures r.Ok? <==> stored.Some? && stored.value in {"up", "down", "paused"}
    ensures r.Ok? ==> StatusName(r.value) == stored.value
  {
    if stored.None? || stored.value == "" then Err("gameStatus not initialized, or invalid value")
    else if stored.value == "up" then Ok(Up)
    else if stored.value == "down" then Ok(Down)
    else if stored.value == "paused" then Ok(Paused)
    else Err("gameStatus not initialized, or invalid value")
  }

  /** Persisting a status and reading it back gives the same status. */
  lemma PersistedStatusRoundTrip(s: GameStatus)
    ensures GetGameStatus(Some(StatusName(s))) == Ok(s)
  {
  }

  /** `state.stats`: the score and the shot, elimination and death counters
      (plus the unused play time). */
  datatype Stats = Stats(score: int, projectiles: nat, eliminations: nat, deaths: nat, time: nat)

  /** `defaultState.stats`: every counter starts at zero. */
  const DefaultStats: Stats := Stats(0, 0, 0, 0, 0)

  // The counters of stateChangers (not part of this model) as the game uses
  // them: `updateScore(n)` adds n, the other three add one.

  function AddScore(st: Stats, points: int): Stats { st.(score := st.score + points) }
  function CountProjectile(st: Stats): Stats { st.(projectiles := st.projectiles + 1) }
  function CountElimination(st: Stats): Stats { st.(eliminations := st.eliminations + 1) }
  function CountDeath(st: Stats): Stats { st.(deaths := st.deaths + 1) }

  function Abs(x: real): real { if x < 0.0 then -x else x }

  /** `parseInt(radius.toFixed(2)) * 100` from `updateScoreFromEnemyRadius`:
      `toFixed(2)` rounds the magnitude to hundredths, halves upward, and
      keeps the sign; `parseInt` keeps the integer part of that text. */
  function KillScore(radius: real): (points: int)
    ensures radius >= 0.0 ==> points >= 0
    ensures radius < 0.0 ==> points <= 0
    ensures points % 100 == 0
  {
    var hundredths := (Abs(radius) * 100.0 + 0.5).Floor;
    var whole := hundredths / 100;
    100 * (if radius < 0.0 then -whole else whole)
  }

  /** For a non-negative radius the kill score is 100 times the integer part
      of the radius, except when the fraction is at least 0.995: then
      `toFixed(2)` rounds up to the next integer first and the score is 100
      more. */
  lemma KillScoreIsHundredTimesWholeRadius(radius: real)
    requires radius >= 0.0
    ensures radius - radius.Floor as real < 0.995 ==> KillScore(radius) == 100 * radius.Floor
    ensures radius - radius.Floor as real >= 0.995 ==> KillScore(radius) == 100 * (radius.Floor + 1)
  {
    var f := radius.Floor;
    var frac := radius - f as real;
    var k := (frac * 100.0 + 0.5).Floor;
    assert 0 <= k <= 100 by {
      assert 0.0 <= frac < 1.0;
      assert 0.5 <= frac * 100.0 + 0.5 < 100.5;
    }
    assert k == 100 <==> frac >= 0.995 by {
      assert frac * 100.0 + 0.5 >= 100.0 <==> frac >= 0.995;
    }
    calc {
      (Abs(radius) * 100.0 + 0.5).Floor;
      (((100 * f) as real) + (frac * 100.0 + 0.5)).Floor;
      { FloorShift(100 * f, frac * 100.0 + 0.5); }
      100 * f + k;
    }
    assert (100 * f + k) / 100 == f + k / 100;
  }

  /** The integer part of an integer plus a real. */
  lemma FloorShift(n: int, x: real)
    ensures ((n as real) + x).Floor == n + x.Floor
  {
  }

  /** Enemies spawn with a whole radius, so their kill is worth exactly 100
      per unit of radius. */
  lemma KillScoreOfWholeRadius(r: nat)
    ensures KillScore(r as real) == 100 * r
  {
    KillScoreIsHundredTimesWholeRadius(r as real);
  }

  /** One entry of `PLAYER_UPGRADES`. */
  datatype Upgrade = Upgrade(scoreRequired: int, upgradedAttack: int)

  /** `PLAYER_UPGRADES.filter(upgrade => score >= upgrade.scoreRequired)`. */
  function AppliedUpgrades(upgrades: seq<Upgrade>, score: int): (applied: seq<Upgrade>)
    ensures |applied| <= |upgrades|
    ensures forall u :: u in applied ==> u in upgrades && u.scoreRequired <= score
  {
    if upgrades == [] then []
    else
      var rest := AppliedUpgrades(upgrades[1..], score);
      if upgrades[0].scoreRequired <= score then [upgrades[0]] + rest else rest
  }

  /** `checkForAndGetUpgradeAttack`: the attack of the last applied upgrade.
      When no upgrade applies, the source reads a field of `undefined` and
      throws; that is `None` here. */
  function UpgradeAttack(upgrades: seq<Upgrade>, score: int): (attack: Option<int>)
  {
    var applied := AppliedUpgrades(upgrades, score);
    if applied == [] then None else Some(applied[|applied| - 1].upgradedAttack)
  }

  /** The filter of a list extended by one entry. */
  lemma {:induction false} AppliedUpgradesSnoc(upgrades: seq<Upgrade>, u: Upgrade, score: int)
    ensures AppliedUpgrades(upgrades + [u], score)
         == AppliedUpgrades(upgrades, score) + (if u.scoreRequired <= score then [u] else [])
    decreases |upgrades|
  {
    if upgrades == [] {
      assert [] + [u] == [u];
    } else {
      assert (upgrades + [u])[1..] == upgrades[1..] + [u];
      AppliedUpgradesSnoc(upgrades[1..], u, score);
    }
  }

  /** The filter drops no reached entry: every table entry whose threshold
      the score has reached is applied. */
  lemma {:induction false} AppliedUpgradesKeepsReached(upgrades: seq<Upgrade>, score: int)
    ensures forall k :: 0 <= k < |upgrades| && upgrades[k].scoreRequired <= score ==>
      upgrades[k] in AppliedUpgrades(upgrades, score)
    decreases |upgrades|
  {
    if upgrades != [] {
      AppliedUpgradesKeepsReached(upgrades[1..], score);
      assert forall k :: 1 <= k < |upgrades| ==> upgrades[k] == upgrades[1..][k - 1];
    }
  }

  /** The filter keeps the table's order: filtering a table made of two
      parts gives the applied entries of the first part, then those of the
      second. */
  lemma {:induction false} AppliedUpgradesKeepOrder(front: seq<Upgrade>, back: seq<Upgrade>, score: int)
    ensures AppliedUpgrades(front + back, score) == AppliedUpgrades(front, score) + AppliedUpgrades(back, score)
    decreases |front|
  {
    if front == [] {
      assert front + back == back;
    } else {
      assert (front + back)[0] == front[0];
      assert (front + back)[1..] == front[1..] + back;
      AppliedUpgradesKeepOrder(front[1..], back, score);
    }
  }

  /** The upgrade lookup yields the attack of the LAST table entry whose
      threshold the score has reached, and it fails exactly when no entry's
      threshold has been reached. */
  lemma {:induction false} UpgradeAttackIsLastReached(upgrades: seq<Upgrade>, score: int)
    ensures UpgradeAttack(upgrades, score).None? <==>
            forall i :: 0 <= i < |upgrades| ==> upgrades[i].scoreRequired > score
    ensures UpgradeAttack(upgrades, score).Some? ==>
            exists i :: 0 <= i < |upgrades| && upgrades[i].scoreRequired <= score
              && UpgradeAttack(upgrades, score).value == upgrades[i].upgradedAttack
              && forall j :: i < j < |upgrades| ==> upgrades[j].scoreRequired > score
    decreases |upgrades|
  {
    if upgrades != [] {
      var n := |upgrades| - 1;
      var init, last := upgrades[..n], upgrades[n];
      assert upgrades == init + [last];
      AppliedUpgradesSnoc(init, last, score);
      UpgradeAttackIsLastReached(init, score);
      if last.scoreRequired <= score {
        assert UpgradeAttack(upgrades, score) == Some(last.upgradedAttack);
      } else {
        assert AppliedUpgrades(upgrades, score) == AppliedUpgrades(init, score);
        if UpgradeAttack(init, score).Some? {
          var i :| 0 <= i < |init| && init[i].scoreRequired <= score
            && UpgradeAttack(init, score).value == init[i].upgradedAttack
            && forall j :: i < j < |init| ==> init[j].scoreRequired > score;
          assert upgrades[i] == init[i];
        } else {
          assert forall i :: 0 <= i < |upgrades| ==> upgrades[i].scoreRequired > score by {
            forall i | 0 <= i < |upgrades| ensures upgrades[i].scoreRequired > score {
              if i < n { assert upgrades[i] == init[i]; }
            }
          }
        }
      }
    }
  }

  /** A table whose thresholds and attacks both increase along the list. */
  predicate Ascending(upgrades: seq<Upgrade>)
  {
    forall i, j :: 0 <= i < j < |upgrades| ==>
      upgrades[i].scoreRequired <= upgrades[j].scoreRequired
      && upgrades[i].upgradedAttack <= upgrades[j].upgradedAttack
  }

  /** With an ascending table, a higher score never yields a lower attack,
      and once an upgrade applies one keeps applying. */
  lemma UpgradeAttackMonotone(upgrades: seq<Upgrade>, s1: int, s2: int)
    requires Ascending(upgrades) && s1 <= s2
    ensures UpgradeAttack(upgrades, s1).Some? ==> UpgradeAttack(upgrades, s2).Some?
    ensures UpgradeAttack(upgrades, s1).Some? ==>
            UpgradeAttack(upgrades, s1).value <= UpgradeAttack(upgrades, s2).value
  {
    UpgradeAttackIsLastReached(upgrades, s1);
    UpgradeAttackIsLastReached(upgrades, s2);
    if UpgradeAttack(upgrades, s1).Some? {
      var i1 :| 0 <= i1 < |upgrades| && upgrades[i1].scoreRequired <= s1
        && UpgradeAttack(upgrades, s1).value == upgrades[i1].upgradedAttack
        && forall j :: i1 < j < |upgrades| ==> upgrades[j].scoreRequired > s1;
      assert upgrades[i1].scoreRequired <= s2;
      var i2 :| 0 <= i2 < |upgrades| && upgrades[i2].scoreRequired <= s2
        && UpgradeAttack(upgrades, s2).value == upgrades[i2].upgradedAttack
        && forall j :: i2 < j < |upgrades| ==> upgrades[j].scoreRequired > s2;
      assert i1 <= i2;
    }
  }
}

=== FILE: store.dfy ===
/** The in-memory key-value store of src/ts/State.ts and its saves to local
    storage. Local storage is a value here: for saving, the entry written;
    for loading, the stored entries in enumeration order. `JSON.parse` is a
    parameter that may reject its text. */
module Store {
  import opened Common

  /** `KEY_PREFIX`. */
  const KeyPrefix: string := "__sgk__"

  /** What `toString()` gives for every `Map`, whatever it holds. */
  const MapText: string := "[object Map]"

  predicate IsDigit(c: char) { '0' <= c <= '9' }

  predicate AllDigits(s: string)
  {
    forall i :: 0 <= i < |s| ==> IsDigit(s[i])
  }

  function DigitChar(d: nat): (c: char)
    requires d < 10
    ensures IsDigit(c)
  {
    ('0' as int + d) as char
  }

  function DigitValue(c: char): nat
    requires IsDigit(c)
  {
    c as int - '0' as int
  }

  /** The decimal text of a natural number, as a template literal shows it. */
  function ShowNat(n: nat): string
    decreases n
  {
    if n < 10 then [DigitChar(n)] else ShowNat(n / 10) + [DigitChar(n % 10)]
  }

  /** The value of a digit string. */
  function DigitsValue(s: string): nat
    requires AllDigits(s)
  {
    if s == [] then 0 else 10 * DigitsValue(s[..|s| - 1]) + DigitValue(s[|s| - 1])
  }

  /** The decimal text of a number is a non-empty digit string that reads
      back as the number. */
  lemma {:induction false} ShowNatRoundTrip(n: nat)
    ensures |ShowNat(n)| >= 1 && AllDigits(ShowNat(n))
    ensures DigitsValue(ShowNat(n)) == n
    decreases n
  {
    if n >= 10 {
      ShowNatRoundTrip(n / 10);
      var s := ShowNat(n);
      assert s[..|s| - 1] == ShowNat(n / 10);
    }
  }

  /** The longest prefix of digits. */
  function LeadingDigits(s: string): (d: string)
    ensures AllDigits(d) && d <= s
    ensures |d| < |s| ==> !IsDigit(s[|d|])
  {
    if s == [] || !IsDigit(s[0]) then [] else [s[0]] + LeadingDigits(s[1..])
  }

  /** `parseInt(text)` on text without leading blanks or a hexadecimal
      prefix: an optional sign, then the leading digits; `None` is `NaN`,
      which is what text without a leading digit gives. */
  function ParseInt(text: string): Option<int>
  {
    var signed := text != [] && (text[0] == '-' || text[0] == '+');
    var digits := LeadingDigits(if signed then text[1..] else text);
    if digits == [] then None
    else if signed && text[0] == '-' then Some(-(DigitsValue(digits) as int))
    else Some(DigitsValue(digits))
  }

  /** A digit string followed by nothing, read with or without a minus sign. */
  lemma ParseShownNat(n: nat)
    ensures ParseInt(ShowNat(n)) == Some(n)
    ensures ParseInt("-" + ShowNat(n)) == Some(-(n as int))
  {
    ShowNatRoundTrip(n);
    var s := ShowNat(n);
    LeadingAllDigits(s);
    assert ("-" + s)[1..] == s;
  }

  lemma {:induction false} LeadingAllDigits(s: string)
    requires AllDigits(s)
    ensures LeadingDigits(s) == s
  {
    if s != [] {
      LeadingAllDigits(s[1..]);
    }
  }

  /** The first position at or after `from` where `sep` occurs in `s`. */
  function IndexFrom(s: string, sep: string, from: nat): (r: Option<nat>)
    requires |sep| > 0
    ensures r.Some? ==> from <= r.value && r.value + |sep| <= |s| && s[r.value..r.value + |sep|] == sep
    decreases |s| - from
  {
    if from + |sep| > |s| then None
    else if s[from..from + |sep|] == sep then Some(from)
    else IndexFrom(s, sep, from + 1)
  }

  /** Text that lacks the first character of `sep` does not contain `sep`. */
  lemma {:induction false} AbsentSeparator(s: string, sep: string, from: nat)
    requires |sep| > 0
    requires forall k :: 0 <= k < |s| ==> s[k] != sep[0]
    ensures IndexFrom(s, sep, from) == None
    decreases |s| - from
  {
    if from + |sep| <= |s| {
      assert s[from..from + |sep|][0] == s[from];
      AbsentSeparator(s, sep, from + 1);
    }
  }

  /** `s.split(sep)[1]`: the text between the first and the second
      occurrence of `sep` (or the end); `None` is `undefined`, when `sep`
      does not occur. */
  function SecondPiece(s: string, sep: string): (piece: Option<string>)
    requires |sep| > 0
  {
    match IndexFrom(s, sep, 0)
    case None => None
    case Some(i) =>
      var rest := s[i + |sep|..];
      match IndexFrom(rest, sep, 0)
      case None => Some(rest)
      case Some(j) => Some(rest[..j])
  }

  /** The key `save` writes at time `now`: `${KEY_PREFIX}-${now}`. */
  function SaveKey(now: nat): (key: string)
    ensures KeyPrefix <= key
  {
    KeyPrefix + "-" + ShowNat(now)
  }

  /** `getTimestampFromKey`: `parseInt` of the piece after the prefix. */
  function TimestampFromKey(key: string): Option<int>
  {
    match SecondPiece(key, KeyPrefix)
    case None => None
    case Some(piece) => ParseInt(piece)
  }

  /** The timestamp read the way the save key was written: the prefix AND
      the dash are split off before parsing. */
  function FixedTimestampFromKey(key: string): Option<int>
  {
    match SecondPiece(key, KeyPrefix + "-")
    case None => None
    case Some(piece) => ParseInt(piece)
  }

  /** The piece after the separator in a save key is everything after it. */
  lemma SaveKeyPieces(now: nat)
    ensures SecondPiece(SaveKey(now), KeyPrefix) == Some("-" + ShowNat(now))
    ensures SecondPiece(SaveKey(now), KeyPrefix + "-") == Some(ShowNat(now))
  {
    PrefixPiece(now);
    PrefixDashPiece(now);
  }

  lemma PrefixPiece(now: nat)
    ensures SecondPiece(SaveKey(now), KeyPrefix) == Some("-" + ShowNat(now))
  {
    var key := SaveKey(now);
    ShowNatRoundTrip(now);
    var digits := ShowNat(now);
    assert key[0..|KeyPrefix|] == KeyPrefix;
    assert key[|KeyPrefix|..] == "-" + digits;
    AbsentSeparator("-" + digits, KeyPrefix, 0);
  }

  lemma PrefixDashPiece(now: nat)
    ensures SecondPiece(SaveKey(now), KeyPrefix + "-") == Some(ShowNat(now))
  {
    var key := SaveKey(now);
    ShowNatRoundTrip(now);
    var digits := ShowNat(now);
    assert key[0..|KeyPrefix| + 1] == KeyPrefix + "-";
    assert key[|KeyPrefix| + 1..] == digits;
    AbsentSeparator(digits, KeyPrefix + "-", 0);
  }

  /** The key written at time t reads back as the timestamp -t: the piece
      after the prefix still starts with the dash. */
  lemma TimestampOfSaveKeyIsNegated(now: nat)
    ensures TimestampFromKey(SaveKey(now)) == Some(-(now as int))
  {
    SaveKeyPieces(now);
    ParseShownNat(now);
  }

  /** Read the fixed way, the key written at time t reads back as t. */
  lemma FixedTimestampRoundTrip(now: nat)
    ensures FixedTimestampFromKey(SaveKey(now)) == Some(now)
  {
    SaveKeyPieces(now);
    ParseShownNat(now);
  }

  /** One entry of the `saves` array `load` builds. */
  datatype LocalSave = LocalSave(key: string, timestamp: Option<int>, value: string)

  /** The saves `load` collects from the stored entries, in enumeration
      order: the keys that start with the prefix and hold a non-empty value,
      each with the timestamp `stamp` reads from its key. */
  function Saves(storage: seq<(string, string)>, stamp: string -> Option<int>): seq<LocalSave>
  {
    if storage == [] then []
    else
      var (key, value) := storage[|storage| - 1];
      Saves(storage[..|storage| - 1], stamp)
        + (if KeyPrefix <= key && value != "" then [LocalSave(key, stamp(key), value)] else [])
  }

  /** `Math.max` over the timestamps: `None` for an empty list (minus
      infinity) or when any timestamp is `NaN`. */
  function MaxTimestamp(saves: seq<LocalSave>): Option<int>
  {
    if saves == [] || saves[0].timestamp.None? then None
    else if |saves| == 1 then saves[0].timestamp
    else match MaxTimestamp(saves[1..])
      case None => None
      case Some(m) => Some(if saves[0].timestamp.value >= m then saves[0].timestamp.value else m)
  }

  /** `saves.find(save => save.timestamp === t)`. */
  function FirstWithTimestamp(saves: seq<LocalSave>, t: int): Option<LocalSave>
  {
    if saves == [] then None
    else if saves[0].timestamp == Some(t) then Some(saves[0])
    else FirstWithTimestamp(saves[1..], t)
  }

  /** `getLatestSave`. */
  function LatestSave(saves: seq<LocalSave>): Option<LocalSave>
  {
    match MaxTimestamp(saves)
    case None => None
    case Some(m) => FirstWithTimestamp(saves, m)
  }

  predicate AllNumbers(saves: seq<LocalSave>)
  {
    forall i :: 0 <= i < |saves| ==> saves[i].timestamp.Some?
  }

  lemma {:induction false} MaxTimestampIsMaximum(saves: seq<LocalSave>)
    ensures MaxTimestamp(saves).Some? <==> saves != [] && AllNumbers(saves)
    ensures MaxTimestamp(saves).Some? ==>
              (forall i :: 0 <= i < |saves| ==> saves[i].timestamp.value <= MaxTimestamp(saves).value)
              && exists i :: 0 <= i < |saves| && saves[i].timestamp == MaxTimestamp(saves)
  {
    if saves != [] && saves[0].timestamp.Some? && |saves| > 1 {
      var rest := saves[1..];
      MaxTimestampIsMaximum(rest);
      assert forall i :: 1 <= i < |saves| ==> saves[i] == rest[i - 1];
      if MaxTimestamp(rest).Some? {
        var j :| 0 <= j < |rest| && rest[j].timestamp == MaxTimestamp(rest);
        assert saves[j + 1] == rest[j];
      } else if AllNumbers(rest) {
        assert false;
      } else {
        var j :| 0 <= j < |rest| && rest[j].timestamp.None?;
        assert saves[j + 1] == rest[j];
      }
    }
  }

  lemma {:induction false} FirstWithTimestampIsFirst(saves: seq<LocalSave>, t: int, i: nat)
    requires i < |saves| && saves[i].timestamp == Some(t)
    ensures exists k :: 0 <= k <= i && FirstWithTimestamp(saves, t) == Some(saves[k])
              && saves[k].timestamp == Some(t)
              && forall j :: 0 <= j < k ==> saves[j].timestamp != Some(t)
  {
    if saves[0].timestamp != Some(t) {
      var rest := saves[1..];
      FirstWithTimestampIsFirst(rest, t, i - 1);
      var k :| 0 <= k <= i - 1 && FirstWithTimestamp(rest, t) == Some(rest[k])
              && rest[k].timestamp == Some(t)
              && forall j :: 0 <= j < k ==> rest[j].timestamp != Some(t);
      assert saves[k + 1] == rest[k];
      assert forall j :: 1 <= j < k + 1 ==> saves[j] == rest[j - 1];
    }
  }

  /** `getLatestSave` finds a save exactly when the list is non-empty and
      every timestamp is a number; the save it finds is the FIRST one whose
      timestamp is the maximum. */
  lemma LatestSaveIsFirstMaximum(saves: seq<LocalSave>)
    ensures LatestSave(saves).Some? <==> saves != [] && AllNumbers(saves)
    ensures LatestSave(saves).Some? ==>
              exists i :: 0 <= i < |saves| && LatestSave(saves) == Some(saves[i])
                && (forall j :: 0 <= j < |saves| ==> saves[j].timestamp.value <= saves[i].timestamp.value)
                && (forall j :: 0 <= j < i ==> saves[j].timestamp.value < saves[i].timestamp.value)
  {
    MaxTimestampIsMaximum(saves);
    if MaxTimestamp(saves).Some? {
      var m := MaxTimestamp(saves).value;
      var i :| 0 <= i < |saves| && saves[i].timestamp == Some(m);
      FirstWithTimestampIsFirst(saves, m, i);
    }
  }

  /** With two saves written at t1 < t2, the key reading as written makes
      `load` choose the OLDER one, whatever their order in storage. */
  lemma LoadPicksOldestSave(t1: nat, t2: nat, v1: string, v2: string)
    requires t1 < t2 && v1 != "" && v2 != ""
    ensures LatestSave(Saves([(SaveKey(t1), v1), (SaveKey(t2), v2)], TimestampFromKey))
         == Some(LocalSave(SaveKey(t1), Some(-(t1 as int)), v1))
    ensures LatestSave(Saves([(SaveKey(t2), v2), (SaveKey(t1), v1)], TimestampFromKey))
         == Some(LocalSave(SaveKey(t1), Some(-(t1 as int)), v1))
  {
    TimestampOfSaveKeyIsNegated(t1);
    TimestampOfSaveKeyIsNegated(t2);
    TwoSaves((SaveKey(t1), v1), (SaveKey(t2), v2), TimestampFromKey);
    TwoSaves((SaveKey(t2), v2), (SaveKey(t1), v1), TimestampFromKey);
    var s1 := LocalSave(SaveKey(t1), Some(-(t1 as int)), v1);
    var s2 := LocalSave(SaveKey(t2), Some(-(t2 as int)), v2);
    LatestOfTwo(s1, s2);
    LatestOfTwo(s2, s1);
  }

  /** With the fixed key reading, the same two saves make `load` choose the
      NEWER one, whatever their order in storage. */
  lemma FixedLoadPicksNewestSave(t1: nat, t2: nat, v1: string, v2: string)
    requires t1 < t2 && v1 != "" && v2 != ""
    ensures LatestSave(Saves([(SaveKey(t1), v1), (SaveKey(t2), v2)], FixedTimestampFromKey))
         == Some(LocalSave(SaveKey(t2), Some(t2), v2))
    ensures LatestSave(Saves([(SaveKey(t2), v2), (SaveKey(t1), v1)], FixedTimestampFromKey))
         == Some(LocalSave(SaveKey(t2), Some(t2), v2))
  {
    FixedTimestampRoundTrip(t1);
    FixedTimestampRoundTrip(t2);
    TwoSaves((SaveKey(t1), v1), (SaveKey(t2), v2), FixedTimestampFromKey);
    TwoSaves((SaveKey(t2), v2), (SaveKey(t1), v1), FixedTimestampFromKey);
    var s1 := LocalSave(SaveKey(t1), Some(t1), v1);
    var s2 := LocalSave(SaveKey(t2), Some(t2), v2);
    LatestOfTwo(s1, s2);
    LatestOfTwo(s2, s1);
  }

  /** Two stored entries that both qualify become two saves, in order. */
  lemma TwoSaves(a: (string, string), b: (string, string), stamp: string -> Option<int>)
    requires KeyPrefix <= a.0 && a.1 != "" && KeyPrefix <= b.0 && b.1 != ""
    ensures Saves([a, b], stamp) == [LocalSave(a.0, stamp(a.0), a.1), LocalSave(b.0, stamp(b.0), b.1)]
  {
    assert [a, b][..1] == [a];
    assert [a][..0] == [];
    assert Saves([a], stamp) == Saves([], stamp) + [LocalSave(a.0, stamp(a.0), a.1)];
    assert Saves([a, b], stamp) == Saves([a], stamp) + [LocalSave(b.0, stamp(b.0), b.1)];
  }

  /** Of two saves with numeric timestamps, the later one wins; on a tie
      the first. */
  lemma LatestOfTwo(s1: LocalSave, s2: LocalSave)
    requires s1.timestamp.Some? && s2.timestamp.Some?
    ensures LatestSave([s1, s2])
         == if s1.timestamp.value >= s2.timestamp.value then Some(s1) else Some(s2)
  {
    assert [s1, s2][1..] == [s2];
    assert MaxTimestamp([s2]) == s2.timestamp;
    if s1.timestamp.value < s2.timestamp.value {
      assert FirstWithTimestamp([s2], s2.timestamp.value) == Some(s2);
    }
  }

  /** The outcome of `load` given the stored entries, a key reading, the
      parser and the current state: the current state when there is no
      save, the parsed latest save, or the exception `JSON.parse` throws. */
  function Loaded<V>(storage: seq<(string, string)>, stamp: string -> Option<int>,
                     parse: string -> Option<map<string, V>>, current: map<string, V>)
    : Result<map<string, V>, string>
  {
    match LatestSave(Saves(storage, stamp))
    case None => Ok(current)
    case Some(latest) =>
      match parse(latest.value)
      case None => Err("SyntaxError")
      case Some(m) => Ok(m)
  }

  /** Without a stored key that starts with the prefix and holds a value,
      `load` keeps the current state. */
  lemma {:induction false} LoadWithoutSavesKeepsState<V>(storage: seq<(string, string)>,
                                                         stamp: string -> Option<int>,
                                                         parse: string -> Option<map<string, V>>,
                                                         current: map<string, V>)
    requires forall i :: 0 <= i < |storage| ==> !(KeyPrefix <= storage[i].0) || storage[i].1 == ""
    ensures Saves(storage, stamp) == []
    ensures Loaded(storage, stamp, parse, current) == Ok(current)
  {
    if storage != [] {
      LoadWithoutSavesKeepsState(storage[..|storage| - 1], stamp, parse, current);
    }
  }

  /** What `save` writes as the value: the `toString()` of the state map. */
  function SavedText<V>(state: map<string, V>): (text: string)
  {
    MapText
  }

  /** Whatever the parser, saving and loading back cannot restore two
      different states: both save the same text. */
  lemma SaveCannotRestoreState<V>(now: nat, m1: map<string, V>, m2: map<string, V>,
                                  parse: string -> Option<map<string, V>>, current: map<string, V>)
    requires m1 != m2
    ensures || Loaded([(SaveKey(now), SavedText(m1))], FixedTimestampFromKey, parse, current) != Ok(m1)
            || Loaded([(SaveKey(now), SavedText(m2))], FixedTimestampFromKey, parse, current) != Ok(m2)
  {
  }

  /** Saving an encoding of the state instead: when the parser inverts the
      encoding, loading after saves at t1 < t2 restores the state saved at
      t2 (with the fixed key reading). */
  lemma FixedSaveThenLoadRestoresNewest<V>(t1: nat, t2: nat, m1: map<string, V>, m2: map<string, V>,
                                          encode: map<string, V> -> string,
                                          parse: string -> Option<map<string, V>>,
                                          current: map<string, V>)
    requires t1 < t2 && encode(m1) != "" && encode(m2) != ""
    requires parse(encode(m2)) == Some(m2)
    ensures Loaded([(SaveKey(t1), encode(m1)), (SaveKey(t2), encode(m2))],
                   FixedTimestampFromKey, parse, current) == Ok(m2)
  {
    FixedLoadPicksNewestSave(t1, t2, encode(m1), encode(m2));
  }

  /** The argument of the constructor: nothing, a plain object's entries,
      or a `Map`. */
  datatype Initial<V> = NoDefault | PlainObject(entries: seq<(string, V)>) | MapValue(m: map<string, V>)

  /** `new Map(Object.entries(object))`: the later of two entries with the
      same key wins. */
  function EntriesMap<V>(entries: seq<(string, V)>): map<string, V>
  {
    if entries == [] then map[]
    else
      var (key, value) := entries[|entries| - 1];
      EntriesMap(entries[..|entries| - 1])[key := value]
  }

  /** A key is in the map built from entries exactly when some entry has
      it, and it maps to the value of the LAST such entry. */
  lemma {:induction false} EntriesMapLookup<V>(entries: seq<(string, V)>, key: string)
    ensures key in EntriesMap(entries) <==> exists i :: 0 <= i < |entries| && entries[i].0 == key
    ensures key in EntriesMap(entries) ==>
              exists i :: 0 <= i < |entries| && entries[i] == (key, EntriesMap(entries)[key])
                && forall j :: i < j < |entries| ==> entries[j].0 != key
  {
    if entries != [] {
      var n := |entries| - 1;
      var init := entries[..n];
      EntriesMapLookup(init, key);
      assert forall i :: 0 <= i < n ==> entries[i] == init[i];
      if entries[n].0 != key && key in EntriesMap(init) {
        var i :| 0 <= i < |init| && init[i] == (key, EntriesMap(init)[key])
                 && forall j :: i < j < |init| ==> init[j].0 != key;
        assert entries[i] == init[i];
      }
    }
  }

  /** The map the constructor starts from. */
  function InitialMap<V>(init: Initial<V>): map<string, V>
  {
    match init
    case NoDefault => map[]
    case PlainObject(entries) => EntriesMap(entries)
    case MapValue(m) => m
  }

  /** `State`: a string-keyed map the game reads and writes. */
  class State<V> {
    var state: map<string, V>

    constructor (init: Initial<V>)
      ensures state == InitialMap(init)
    {
      state := InitialMap(init);
    }

    /** `get(key)`: `None` is `undefined`, for a key never set. */
    function Get(key: string): Option<V>
      reads this`state
    {
      if key in state then Some(state[key]) else None
    }

    /** `set({key, value})`: afterwards `get(key)` is the value and every
        other key reads as before. */
    method Set(key: string, value: V)
      modifies this`state
      ensures state == old(state)[key := value]
      ensures Get(key) == Some(value)
      ensures forall k :: k != key ==> Get(k) == old(Get(k))
    {
      state := state[key := value];
    }

    /** `save()` at clock reading `now`: the entry it writes to local
        storage. */
    method Save(now: nat) returns (key: string, value: string)
      ensures key == SaveKey(now) && value == SavedText(state)
    {
      key := KeyPrefix + "-" + ShowNat(now);
      value := MapText;
    }

    /** `save()` as evidently intended: the entry carries an encoding of
        the state rather than the text every map prints as. */
    method SaveEncoded(now: nat, encode: map<string, V> -> string) returns (key: string, value: string)
      ensures key == SaveKey(now) && value == encode(state)
    {
      key := KeyPrefix + "-" + ShowNat(now);
      value := encode(state);
    }

    /** `load()` over the stored entries: the saves are collected key by
        key, then the latest is parsed into the new state. The result is
        `Ok(true)` when a save was loaded, `Ok(false)` when there was none,
        and `Err` when parsing threw, which leaves the state as it was. */
    method Load(storage: seq<(string, string)>, parse: string -> Option<map<string, V>>)
      returns (r: Result<bool, string>)
      modifies this`state
      ensures var outcome := Loaded(storage, TimestampFromKey, parse, old(state));
        && (outcome.Ok? ==> r.Ok? && state == outcome.value)
        && (outcome.Err? ==> r.Err? && state == old(state))
      ensures r == Ok(false) <==> LatestSave(Saves(storage, TimestampFromKey)).None?
    {
      var saves: seq<LocalSave> := [];
      var i := 0;
      while i < |storage|
        invariant 0 <= i <= |storage|
        invariant saves == Saves(storage[..i], TimestampFromKey)
      {
        var (key, value) := storage[i];
        if KeyPrefix <= key && value != "" {
          saves := saves + [LocalSave(key, TimestampFromKey(key), value)];
        }
        assert storage[..i + 1][..i] == storage[..i];
        i := i + 1;
      }
      assert storage[..i] == storage;
      var latest := LatestSave(saves);
      if latest.None? {
        return Ok(false);
      }
      var parsed := parse(latest.value.value);
      if parsed.None? {
        return Err("SyntaxError");
      }
      state := parsed.value;
      r := Ok(true);
    }
  }
}
